=== FILE: README.md ===
# Satellite Tracker — a verified model of its core

Satellite Tracker (the "Mission Board Dashboard") is a small web
application in two parts:

- **The Java backend** keeps ten satellite records in memory. It serves
  them at `/satellites` as a JSON document, which it builds by hand with a
  `StringBuilder`.
- **The React frontend** fetches that list. It shows the list in four
  views:
  - **Home:** quick statistics.
  - **Dashboard:** metric cards; a chart of the orbit distribution, the
    launch timeline or the status overview; and a list of active missions.
  - **History:** a searchable, filterable, sortable table, ten records to
    a page.
  - **Live video:** not part of this model.

This project models that core in Dafny and proves what each part promises.

- **Backend** (`backend.dfy`). `SatelliteData` is a class whose constructor
  performs the ten seeding `add` calls. `WriteDocument` is the appending
  loop of `getSatellitesAsJson`, and `GetSatellitesAsJson` calls it.
  - The appended pieces are gathered in a `Layout`. The loop is proved to
    produce exactly `Document(...)`, a recursive description of the served
    text.
  - A reader (`Decode`) is proved to recover the records, the count and
    the instant from that text, provided no field needs escaping (no
    double quote, backslash or control character).
    This holds for every layout that meets `WellFormed`, and for the
    literals actually used (`Json`).
- **Shared helpers.** `Text` holds the string operations the views rely
  on: ASCII `toLowerCase`, `includes`, the string `<` (by code point), and
  decimal rendering of integers with its inverse. `Collections` holds
  `Set`-based de-duplication and counting. `Satellites` holds the record
  and the projections several views share.
- **History** (`history_filter.dfy`, `history_sort.dfy`,
  `history_pages.dfy`, `history_view.dfy`):
  - the filter predicate and the filtered list;
  - the comparator and an in-place insertion sort over an `array`;
  - pagination and the page-number buttons;
  - a `HistoryView` class. Its invariant `Valid` says that the stored list
    is the filtered input in sorted order, and that the current page exists.
- **Dashboard** (`dashboard.dfy`): the three chart generators, the metric
  dispatch with its fallback, the effect guard on an empty list, the
  active list and the agreement of the metric cards with the charts.
- **App** (`app.dfy`): the global state as a class. It covers the fetch
  state machine, navigation with refresh, the view switch and the error
  toast.

## Model

| member | source | states |
|---|---|---|
| Backend.SatelliteData.constructor | backend/SatelliteData.java:21-35 | after the ten `add` calls the list is exactly the seed, in order |
| Backend.SeedIdsAndStatus | backend/SatelliteData.java:25-34 | the seed holds ten records numbered 1 to 10 in order, every one `Active` |
| Backend.SeedDates | backend/SatelliteData.java:25-34 | every seeded launch date has the `yyyy-MM-dd` shape the formatter names |
| Backend.SeedClean | backend/SatelliteData.java:25-34 | no string field of any seeded record holds a double quote, a backslash or a control character, so every one is copied into valid JSON unchanged |
| Backend.JsonWellFormed | backend/SatelliteData.java:42-64 | the literals appended by `getSatellitesAsJson` meet the conditions under which the document reads back |
| Backend.SatelliteData.WriteDocument | backend/SatelliteData.java:41-66 | the append loop yields `Document`: the opening, then every record's object followed by a comma unless it is the last and then a line break, then the array close, `total_count` equal to the list size, `last_updated` equal to the instant and the closing brace |
| Backend.SatelliteData.GetSatellitesAsJson | backend/SatelliteData.java:40-67 | the served text is the document above for the actual literals |
| Backend.ParseObjectText | backend/SatelliteData.java:47-53 | one written object reads back as the record it was written from, when its fields need no escaping |
| Backend.ParseObjectsFrom | backend/SatelliteData.java:45-59 | the comma-separated objects from position i on read back as exactly the records from i on |
| Backend.ParseFooterText | backend/SatelliteData.java:61-64 | the footer reads back as the list size and the instant |
| Backend.DecodeDocument | backend/SatelliteData.java:40-67 | round trip: decoding `Document` gives back the records, the count equal to their number, and the instant, for any well-formed layout, records whose fields need no escaping, and a quote-free instant |
| Backend.DecodeServedSeed | backend/SatelliteData.java:21-67 | the document served for the seed decodes to the ten seeded records, a count of 10 and the instant |
| Text.Lower | frontend/src/components/SatelliteHistory.js:24-25 | case folding keeps the length, leaves no capital letter, changes exactly the capitals, each to its small letter |
| Text.LowerIdempotent | frontend/src/components/SatelliteHistory.js:24-25 | folding twice is folding once |
| Text.IncludesIff | frontend/src/components/SatelliteHistory.js:24-25 | `includes` holds exactly when the needle occurs at some position of the text |
| Text.StrLessAsymmetric | frontend/src/components/SatelliteHistory.js:42-46 | the string `<` of the sort (lexicographic by code point) never holds both ways |
| Text.StrLessTransitive | frontend/src/components/SatelliteHistory.js:42-46 | string `<` is transitive |
| Text.StrLessTotal | frontend/src/components/SatelliteHistory.js:42-46 | of two different strings one is `<` the other |
| Text.ParseIntToString | backend/SatelliteData.java:48 | the decimal rendering of an id reads back as the same id |
| Text.IntToStringInjective | backend/SatelliteData.java:48 | different ids render as different texts |
| Collections.Distinct | frontend/src/components/SatelliteHistory.js:18-19 | `[...new Set(xs)]`: no repetitions, exactly the values of the input, no longer than it |
| Collections.DistinctFirstSeen | frontend/src/components/SatelliteHistory.js:18-19 | the de-duplicated values keep the order in which they are first seen |
| Collections.DistinctCardinality | frontend/src/components/Home.js:13 | the number of de-duplicated values is the size of the set of values |
| Satellites.OrbitTypesMembers | frontend/src/components/SatelliteHistory.js:18 | an orbit type is listed exactly when some record has it |
| Satellites.StatusesMembers | frontend/src/components/SatelliteHistory.js:19 | a status is listed exactly when some record has it |
| Satellites.ActiveSatellites | frontend/src/components/Dashboard.js:207 | the active filter keeps only input records whose status is `Active`, never more than the input |
| Satellites.ActiveSatellitesCounts | frontend/src/components/Dashboard.js:313 | every `Active` record is kept as often as it occurs in the input, and no other record is kept |
| Satellites.ActiveSatellitesSpec | frontend/src/components/Home.js:12 | the active filter keeps exactly the records whose status is `Active`, and their number is the count of `Active` statuses |
| Satellites.OrbitTypeCountBounds | frontend/src/components/Home.js:13 | the number of orbit types is the size of the set of orbit types, at most the number of records, and zero exactly for no records |
| HistoryFilter.Filter | frontend/src/components/SatelliteHistory.js:23-30 | the filtered list holds only input records that match the criteria, and is no longer than the input |
| HistoryFilter.MatchesIff | frontend/src/components/SatelliteHistory.js:23-30 | a record passes exactly when its folded name or orbit type contains the folded search term, the orbit selection is `all` or equal, and the status selection is `all` or equal |
| HistoryFilter.FilterIsSubsequence | frontend/src/components/SatelliteHistory.js:23-30 | the filtered list is the input with records removed, the rest in their original order |
| HistoryFilter.FilterCounts | frontend/src/components/SatelliteHistory.js:23-30 | every matching record is kept as often as it occurs, and no other record is kept |
| HistoryFilter.FilterIdempotent | frontend/src/components/SatelliteHistory.js:23-30 | filtering an already filtered list with the same criteria changes nothing |
| HistoryFilter.FilterNoCriteria | frontend/src/components/SatelliteHistory.js:9-11 | with the initial empty search and both selections at `all`, every record is kept |
| HistoryFilter.ActiveIsStatusFilter | frontend/src/components/Dashboard.js:313 | the active list is the filter with an empty search, every orbit and status `Active`, so it is the input with the other records removed, in input order |
| HistorySort.CompareSpec | frontend/src/components/SatelliteHistory.js:42-46 | the comparator answers 1 or -1, never 0, and puts first a record whose key comes first in the chosen direction |
| HistorySort.InOrderReflexive | frontend/src/components/SatelliteHistory.js:42-46 | the comparator answers -1 for a record compared with itself (it never answers 0), which makes it an inconsistent comparator; the source does not rely on this |
| HistorySort.InOrderTotal | frontend/src/components/SatelliteHistory.js:33-47 | of any two records the comparator lets at least one stand before the other |
| HistorySort.InOrderTransitive | frontend/src/components/SatelliteHistory.js:33-47 | the order the comparator induces is transitive |
| HistorySort.SortInPlace | frontend/src/components/SatelliteHistory.js:33-47 | the array ends sorted by the chosen key and direction, and is a permutation of what it held |
| HistorySort.InsertLast | frontend/src/components/SatelliteHistory.js:33-47 | one insertion step extends the sorted prefix by one and permutes the array |
| HistorySort.ReverseSorted | frontend/src/components/SatelliteHistory.js:42-46 | a list is ascending by a key exactly when its reverse is descending by it |
| HistoryPages.TotalPages | frontend/src/components/SatelliteHistory.js:54 | `Math.ceil(n / 10)`: the least page count whose pages hold n records |
| HistoryPages.Page | frontend/src/components/SatelliteHistory.js:55-56 | a page holds at most ten records, and is empty exactly when its number exceeds the page count |
| HistoryPages.PageContents | frontend/src/components/SatelliteHistory.js:55-56 | row i of page p is record `(p - 1) * 10 + i` of the list |
| HistoryPages.PagesUpToPrefix | frontend/src/components/SatelliteHistory.js:54-56 | pages 1 to k laid end to end are the first `min(10k, n)` records |
| HistoryPages.PagesPartition | frontend/src/components/SatelliteHistory.js:54-56 | the pages laid end to end are the whole list, and every page past the last is empty |
| HistoryPages.PageButtons | frontend/src/components/SatelliteHistory.js:323-345 | the page buttons are strictly increasing, and page m has one exactly when it is the first, the last, or within two of the current page |
| HistoryPages.PageButtonsAtMostSeven | frontend/src/components/SatelliteHistory.js:323-345 | at most seven page-number buttons are rendered, however many pages there are |
| HistoryView.HistoryView.ShowPagination | frontend/src/components/SatelliteHistory.js:308 | the pagination controls are rendered exactly when the displayed list has more than ten rows |
| HistoryView.HistoryView.Visible | frontend/src/components/SatelliteHistory.js:55-56 | the rows shown are at most ten, each an input record that matches the criteria |
| HistoryView.HistoryView.OrbitOptions | frontend/src/components/SatelliteHistory.js:18 | the orbit drop-down lists each orbit type that some record has, once |
| HistoryView.HistoryView.StatusOptions | frontend/src/components/SatelliteHistory.js:19 | the status drop-down lists each status that some record has, once |
| HistoryView.HistoryView.constructor | frontend/src/components/SatelliteHistory.js:8-15 | the view starts on name ascending, empty search, `all`/`all`, page 1, showing every record |
| HistoryView.HistoryView.ApplyFilters | frontend/src/components/SatelliteHistory.js:22-51 | the effect stores the filtered records sorted by the current key and direction and resets the page to 1 |
| HistoryView.HistoryView.SetSatellites | frontend/src/components/SatelliteHistory.js:51 | new records re-run the effect and keep the selections |
| HistoryView.HistoryView.SetSearchTerm | frontend/src/components/SatelliteHistory.js:159 | a changed search term re-filters and goes to page 1; the same term changes nothing |
| HistoryView.HistoryView.SetOrbitFilter | frontend/src/components/SatelliteHistory.js:168 | a changed orbit selection re-filters and goes to page 1; the same one changes nothing |
| HistoryView.HistoryView.SetStatusFilter | frontend/src/components/SatelliteHistory.js:181 | a changed status selection re-filters and goes to page 1; the same one changes nothing |
| HistoryView.HistoryView.HandleSort | frontend/src/components/SatelliteHistory.js:58-65 | the same column flips the direction, a new column sorts ascending; the list is re-sorted and the page reset |
| HistoryView.HistoryView.PreviousPage | frontend/src/components/SatelliteHistory.js:308-320 | Previous moves back one page except on page 1, and exists only when there are several pages |
| HistoryView.HistoryView.NextPage | frontend/src/components/SatelliteHistory.js:347-355 | Next moves on one page except on the last, and exists only when there are several pages |
| HistoryView.HistoryView.GoToPage | frontend/src/components/SatelliteHistory.js:323-345 | a page button moves to its page, and only rendered buttons can be clicked |
| HistoryView.BadgeClass | frontend/src/components/SatelliteHistory.js:72-83 | `active`, `inactive` and `decommissioned` in any letter case get the success, secondary and danger badges, and every other status the warning badge |
| HistoryView.BadgeClassIgnoresCase | frontend/src/components/SatelliteHistory.js:72-83 | the badge depends on the status only up to letter case |
| Home.ComputeStats | frontend/src/components/Home.js:10-15 | total is the number of records, active the number with status `Active`, orbits the number of distinct orbit types, each within the total, and orbits is zero exactly for no records |
| Home.AllActiveIff | frontend/src/components/Home.js:11-12 | the active count equals the total exactly when every record is `Active` |
| Dashboard.CountByKey | frontend/src/components/Dashboard.js:36-39 | the `reduce` into an object counts every key's occurrences, has exactly the keys present, and lists them in first-seen order |
| Dashboard.Tally | frontend/src/components/Dashboard.js:41-45 | one entry per distinct key |
| Dashboard.TallyEntries | frontend/src/components/Dashboard.js:41-45 | entry i is named after the i-th distinct key in first-seen order and counts its occurrences, at least one |
| Dashboard.TallyTotal | frontend/src/components/Dashboard.js:35-48 | the values of a distribution add up to the number of records |
| Dashboard.OrbitDistribution | frontend/src/components/Dashboard.js:35-48 | the orbit chart is the tally of orbit types, summing to the number of records |
| Dashboard.StatusOverview | frontend/src/components/Dashboard.js:67-80 | the status chart is the tally of statuses, summing to the number of records |
| Dashboard.SortByYear | frontend/src/components/Dashboard.js:62 | the timeline entries are sorted by year in place, as a permutation |
| Dashboard.InsertLast | frontend/src/components/Dashboard.js:62 | one insertion step extends the year-sorted prefix and permutes the entries |
| Dashboard.DistinctYearsPermutation | frontend/src/components/Dashboard.js:57-62 | reordering entries with distinct years keeps the years distinct |
| Dashboard.LaunchTimeline | frontend/src/components/Dashboard.js:50-65 | one entry per distinct launch year, strictly ascending, each counting that year's launches; the counts sum to the number of records |
| Dashboard.SortedCountsAreTimeline | frontend/src/components/Dashboard.js:57-62 | per-year counts sorted by year form such a timeline |
| Dashboard.ProcessChartData | frontend/src/components/Dashboard.js:19-33 | `status_overview` and `launch_timeline` give their charts, any other metric the orbit distribution; every chart sums to the number of records |
| Dashboard.ActiveMissionList | frontend/src/components/Dashboard.js:313 | the side list is the first `min(8, n)` active records |
| Dashboard.ActiveCardMatchesOverview | frontend/src/components/Dashboard.js:207 | the Active Missions card equals the `Active` entry of the status overview, and with no active record the overview has no such entry |
| Dashboard.MetricCardsMatchCharts | frontend/src/components/Dashboard.js:190-225 | the Total Satellites card is the sum of the orbit chart, Orbit Types is its number of slices, Active Missions counts the records of the side list |
| Dashboard.DashboardView.constructor | frontend/src/components/Dashboard.js:8-17 | the dashboard starts on the orbit distribution, and its first effect fills the chart only for a non-empty list |
| Dashboard.DashboardView.RunEffect | frontend/src/components/Dashboard.js:12-17 | for a non-empty list the chart is that of the selected metric; for an empty one the previous chart stays |
| Dashboard.DashboardView.SetSatellites | frontend/src/components/Dashboard.js:12-17 | new records re-run the effect under the same metric |
| Dashboard.DashboardView.SelectMetric | frontend/src/components/Dashboard.js:9-17 | a different metric recomputes the chart for a non-empty list; the same metric changes nothing |
| App.ThrownMessage | frontend/src/App.js:37-47 | a fetch throws exactly when the response is not ok, the request or body read fails, or the body's `satellites` is not an array |
| App.HttpStatusRecoverable | frontend/src/App.js:38 | the HTTP error text starts with its prefix and the status reads back from it |
| App.HttpErrorsDistinct | frontend/src/App.js:38 | different status codes give different error texts |
| App.ScreenFor | frontend/src/App.js:78-98 | each of `dashboard`, `history` and `videos` selects its own component exactly, and every other view (including `home`) shows Home |
| App.AppState.constructor | frontend/src/App.js:13-16 | the app starts on `home`, showing Home, with no records, not loading and no error toast |
| App.AppState.Mount | frontend/src/App.js:59-61 | mounting starts exactly one fetch (in a production build) |
| App.AppState.BeginFetch | frontend/src/App.js:25-26 | a fetch starts by setting loading and clearing the error, which hides the toast; the records are untouched |
| App.AppState.CompleteFetch | frontend/src/App.js:28-55 | a good body replaces the records and leaves no error; any failure shows `Failed to load satellite data: ` plus the thrown message over an empty list; loading stops either way; the toast is shown exactly when the fetch failed |
| App.AppState.FetchSatellites | frontend/src/App.js:24-56 | a whole uninterrupted fetch, with the outcomes above, the toast shown exactly on failure, and one more fetch counted |
| App.AppState.Navigate | frontend/src/App.js:66-98 | the view changes to the requested one and the component shown is the one `renderCurrentView` picks for it; exactly `dashboard` and `history` start a refresh |
| App.AppState.DismissToast | frontend/src/App.js:113-122 | closing the toast clears the error, so the toast is no longer shown, and changes nothing else |

## Left out

- Percentages: the `percentage` field (`toFixed(1)` of a floating-point ratio) of the distribution entries is not modelled, because it is floating point.
- Dates on the frontend are modelled as already-parsed `(year, month, day)` triples. Parsing with `new Date(...)`, time zones and `getFullYear` are not modelled. Backend dates stay the seeded strings.
- Text.Lower: folds ASCII capitals only; the Unicode case mapping of `toLowerCase` is not modelled.
- Clocks: `Instant.now()` is a parameter `now` of `GetSatellitesAsJson`, and Home's `lastUpdate` (`new Date().toLocaleString()`) is not modelled.
- Network I/O: the request is abstracted into the `FetchOutcome` it ends with. Every error the runtime throws is `NetworkError` with the runtime's message. That covers a failing `fetch` and a failing `response.json()`. It also covers a `null` body: reading `data.satellites` from it throws a `TypeError`, so the toast shows that message, not the invalid-format one. `console.error` and the API URL configuration are not modelled.
- App.FetchOutcome: elements of an accepted `satellites` array are assumed to be well-formed records. The handler checks only `Array.isArray`; an element without a string `name` would make the history filter throw when it calls `toLowerCase`. That failure is not modelled.
- Concurrency: fetches are modelled as begun and completed atomically, or as a begin followed by its own completion. Overlapping fetches whose completions interleave are not modelled.
- Dashboard.CountByKey: JavaScript's `Object.entries` lists integer-like keys first, in ascending order. The model lists every key in first-seen order, which agrees for orbit types and statuses that are not integer-like. The timeline is sorted by year afterwards, so its result is unaffected.
- Dashboard.CountByKey: the source tallies into a plain `{}` with `acc[k] = (acc[k] || 0) + 1`, so a key that names an `Object.prototype` member is counted differently. For `__proto__` the assignment goes to the prototype setter, and the key never gets an entry. For `constructor`, `toString`, `valueOf`, `hasOwnProperty`, `isPrototypeOf`, `propertyIsEnumerable`, `toLocaleString`, `__defineGetter__`, `__defineSetter__`, `__lookupGetter__` and `__lookupSetter__`, the count starts from the inherited function and becomes a string. The model counts such keys like any other. So `Dashboard.Tally`, `Dashboard.TallyTotal`, `Dashboard.OrbitDistribution`, `Dashboard.StatusOverview`, `Dashboard.ProcessChartData` and `Dashboard.MetricCardsMatchCharts` describe the source only when no orbit type or status is one of these names. The seeded data uses none of them.
- Dashboard.TallyTotal: the chart summing to the number of records holds in the source only for keys that are not `Object.prototype` member names (see the line above).
- Text.StrLess: strings are compared by Unicode code point, as Dafny's `char` orders them. JavaScript's `<` compares UTF-16 code units. The two agree for text inside the Basic Multilingual Plane, which covers every record modelled here. They differ where a character above U+FFFF meets one in U+E000 to U+FFFF at the same position, so the history sort at SatelliteHistory.js:42-46 may order such names differently.
- Backend.Record: `id` is an unbounded integer; Java's 32-bit `int` does not matter for the seeded ids 1 to 10.
- Backend.Decode: reads this document's layout only, character for character; it is not a general JSON parser. The serialiser copies string fields between quotes without escaping. A field holding a double quote, a backslash or a control character therefore yields text that is not valid JSON, or that a JSON parser reads differently (`\n` becomes a line break). `Clean` excludes these characters, and the seed has none (`SeedClean`). For clean fields a JSON string literal holds no escapes, so its value is its characters, as `Decode` reads them. That a JSON parser would agree is argued here, not proved, because no JSON grammar is modelled.
- App.AppState.Mount: one fetch per mount holds for a production build; `index.js` wraps `<App/>` in `React.StrictMode`, so a development build runs the mount effect twice and starts two fetches.
- Rendering: JSX markup, loading and error panels, `getSortIcon`, the "Showing x of y" result line, and the Navbar, LiveVideo, SatelliteServer, Main and index.js files are not part of this model.
- HistorySort.SortInPlace: an insertion sort stands in for the engine's `Array.prototype.sort`. The comparator answers -1 both ways for two records with equal keys and for a record compared with itself, so it is not a consistent comparator in the sense of the ECMAScript specification of `Array.prototype.sort`, and for such a comparator the language guarantees only that the array is permuted, in an implementation-defined order. The `Sorted` ensures describes what engines actually produce with this comparator: key-sorted output in the chosen direction, with equal-key records in any order. It is not a promise the language makes to the source.

=== FILE: app.dfy ===
/**
 * The application shell: the global `{currentView, satellites, loading,
 * error}` state, the fetch that refreshes the records, navigation between
 * views (which refreshes the dashboard and the history), and the error
 * toast. The network is abstracted into the outcome a fetch ends with.
 */
module App {

  import opened Wrappers
  import opened Text
  import opened Satellites

  /**
   * How a request for `/satellites` ended. `NetworkError` stands for every
   * error thrown by the runtime rather than by the handler itself: `fetch`
   * failing, `response.json()` failing, and reading `data.satellites` of a
   * `null` body (a `TypeError`), each with the runtime's message.
   */
  datatype FetchOutcome =
    | HttpError(status: nat)                // a response whose `ok` is false
    | NetworkError(message: string)         // the runtime threw with this message
    | Ok(body: Option<seq<Satellite>>)      // a parsed non-null body; `None` when its `satellites` is missing or not an array

  /** The component `renderCurrentView` shows. */
  datatype Screen = HomeScreen | DashboardScreen | HistoryScreen | VideosScreen

  const ErrorPrefix: string := "Failed to load satellite data: "
  const HttpErrorPrefix: string := "HTTP error! status: "
  const InvalidFormat: string := "Invalid data format received from server"

  /** The message of the error a failed fetch throws; `None` when it succeeds. */
  function ThrownMessage(outcome: FetchOutcome): (r: Option<string>)
    ensures r.None? <==> outcome.Ok? && outcome.body.Some?
  {
    match outcome
    case HttpError(status) => Some(HttpErrorPrefix + NatToString(status))
    case NetworkError(message) => Some(message)
    case Ok(None) => Some(InvalidFormat)
    case Ok(Some(_)) => None
  }

  /** The status code can be read back from the text of an HTTP error. */
  lemma HttpStatusRecoverable(status: nat)
    ensures ThrownMessage(HttpError(status)).Some?
    ensures HttpErrorPrefix <= ThrownMessage(HttpError(status)).value
    ensures ParseNat(ThrownMessage(HttpError(status)).value[|HttpErrorPrefix|..]) == Some(status)
  {
    var m := HttpErrorPrefix + NatToString(status);
    assert m[|HttpErrorPrefix|..] == NatToString(status);
    ParseNatToString(status);
  }

  /** Different failing status codes give different error texts. */
  lemma HttpErrorsDistinct(a: nat, b: nat)
    requires a != b
    ensures ThrownMessage(HttpError(a)) != ThrownMessage(HttpError(b))
  {
    HttpStatusRecoverable(a);
    HttpStatusRecoverable(b);
  }

  /** `renderCurrentView`: the four known views, and Home for anything else. */
  function ScreenFor(view: string): (r: Screen)
    ensures r == DashboardScreen <==> view == "dashboard"
    ensures r == HistoryScreen <==> view == "history"
    ensures r == VideosScreen <==> view == "videos"
    ensures r == HomeScreen <==> view !in {"dashboard", "history", "videos"}
  {
    if view == "home" then HomeScreen
    else if view == "dashboard" then DashboardScreen
    else if view == "history" then HistoryScreen
    else if view == "videos" then VideosScreen
    else HomeScreen
  }

  /** The views whose navigation triggers a refresh. */
  predicate RefreshesOnNavigation(view: string) {
    view == "dashboard" || view == "history"
  }

  class AppState {
    var currentView: string
    var satellites: seq<Satellite>
    var loading: bool
    var error: Option<string>
    /** How many fetches have been started. */
    ghost var fetches: nat

    /**
     * While a fetch is in flight no error is shown, and an error is only
     * ever shown over an empty list of records.
     */
    ghost predicate Valid()
      reads this
    {
      && (loading ==> error == None)
      && (error.Some? ==> satellites == [])
    }

    /** The state before the first render's effects run. */
    constructor ()
      ensures currentView == "home" && satellites == [] && !loading && error == None
      ensures CurrentScreen() == HomeScreen && !ToastShown()
      ensures fetches == 0 && Valid()
    {
      currentView := "home";
      satellites := [];
      loading := false;
      error := None;
      fetches := 0;
    }

    /** The mount effect: exactly one fetch starts. */
    method Mount()
      requires Valid()
      modifies this
      ensures Valid()
      ensures fetches == old(fetches) + 1
      ensures loading && error == None
      ensures currentView == old(currentView) && satellites == old(satellites)
    {
      BeginFetch();
    }

    /** The synchronous start of `fetchSatellites`. */
    method BeginFetch()
      requires Valid()
      modifies this
      ensures Valid()
      ensures loading && error == None && satellites == old(satellites)
      ensures !ToastShown()
      ensures currentView == old(currentView) && fetches == old(fetches) + 1
    {
      loading := true;
      error := None;
      fetches := fetches + 1;
    }

    /**
     * The rest of `fetchSatellites` once the request has ended: the records
     * arrive unchanged, or the error is shown over an empty list; either
     * way loading stops.
     */
    method CompleteFetch(outcome: FetchOutcome)
      requires Valid() && loading
      modifies this
      ensures Valid() && !loading
      ensures outcome.Ok? && outcome.body.Some? ==> satellites == outcome.body.value && error == None
      ensures ThrownMessage(outcome).Some? ==> satellites == [] && error == Some(ErrorPrefix + ThrownMessage(outcome).value)
      ensures ToastShown() <==> ThrownMessage(outcome).Some?
      ensures currentView == old(currentView) && fetches == old(fetches)
    {
      var thrown: Option<string> := None;
      if outcome.HttpError? {
        thrown := Some(HttpErrorPrefix + NatToString(outcome.status));
      } else if outcome.NetworkError? {
        thrown := Some(outcome.message);
      } else if outcome.body.Some? {
        satellites := outcome.body.value;
      } else {
        thrown := Some(InvalidFormat);
      }
      if thrown.Some? {
        error := Some(ErrorPrefix + thrown.value);
        satellites := [];
      }
      loading := false;
    }

    /** A whole fetch, begun and completed with no other event in between. */
    method FetchSatellites(outcome: FetchOutcome)
      requires Valid()
      modifies this
      ensures Valid() && !loading
      ensures outcome.Ok? && outcome.body.Some? ==> satellites == outcome.body.value && error == None
      ensures ThrownMessage(outcome).Some? ==> satellites == [] && error == Some(ErrorPrefix + ThrownMessage(outcome).value)
      ensures ToastShown() <==> ThrownMessage(outcome).Some?
      ensures currentView == old(currentView) && fetches == old(fetches) + 1
    {
      BeginFetch();
      CompleteFetch(outcome);
    }

    /** `handleNavigation`: switch view, and start a refresh for the dashboard and the history. */
    method Navigate(view: string)
      requires Valid()
      modifies this
      ensures Valid() && currentView == view && CurrentScreen() == ScreenFor(view)
      ensures fetches == old(fetches) + (if RefreshesOnNavigation(view) then 1 else 0)
      ensures RefreshesOnNavigation(view) ==> loading && error == None
      ensures satellites == old(satellites)
      ensures !RefreshesOnNavigation(view) ==> loading == old(loading) && error == old(error)
    {
      currentView := view;
      if RefreshesOnNavigation(view) {
        BeginFetch();
      }
    }

    /** The component shown for the current view. */
    function CurrentScreen(): Screen
      reads this
    {
      ScreenFor(currentView)
    }

    /** The toast's close button: clears the error and nothing else. */
    method DismissToast()
      requires Valid()
      modifies this`error
      ensures Valid() && error == None && !ToastShown()
    {
      error := None;
    }

    /** The toast is rendered exactly when there is an error. */
    predicate ToastShown()
      reads this
    {
      error.Some?
    }
  }
}

=== FILE: backend.dfy ===
/**
 * The backend's data store: ten seeded records and the hand-built JSON
 * document served at `/satellites`. The document is appended piece by
 * piece from fixed literals; the pieces are gathered in a `Layout` so that
 * the reasoning about the document's shape does not depend on their
 * characters beyond the few facts `WellFormed` lists. String fields are
 * copied between quotes without escaping, so the document reads back only
 * when no field holds a double quote.
 */
module Backend {

  import opened Wrappers
  import opened Text

  /** A stored record; the launch date is kept as the text it was seeded with. */
  datatype Record = Record(id: int, name: string, launchDate: string, orbitType: string, status: string)

  /** `yyyy-MM-dd`. */
  predicate IsIsoDate(s: string) {
    && |s| == 10
    && s[4] == '-' && s[7] == '-'
    && (forall i :: 0 <= i < 10 && i != 4 && i != 7 ==> IsDigit(s[i]))
  }

  /** The text holds no double quote. */
  predicate QuoteFree(s: string) {
    forall j :: 0 <= j < |s| ==> s[j] != '"'
  }

  /**
   * The text can stand between quotes in JSON as it is: it holds no double
   * quote, no backslash and no control character, so a JSON reader takes
   * it character for character.
   */
  predicate JsonSafe(s: string) {
    forall j :: 0 <= j < |s| ==> s[j] != '"' && s[j] != '\\' && ' ' <= s[j]
  }

  /** Every string field of the record is copied into valid JSON unchanged. */
  predicate Clean(r: Record) {
    JsonSafe(r.name) && JsonSafe(r.launchDate) && JsonSafe(r.orbitType) && JsonSafe(r.status)
  }

  /** A clean record's fields cannot end their own quoted values early. */
  lemma CleanQuoteFree(r: Record)
    requires Clean(r)
    ensures QuoteFree(r.name) && QuoteFree(r.launchDate) && QuoteFree(r.orbitType) && QuoteFree(r.status)
  {
  }

  /** The literal pieces a document is appended from. */
  datatype Layout = Layout(
    documentOpen: string, arrayOpen: string,
    objectOpen: string, idKey: string, nameKey: string, dateKey: string, orbitKey: string, statusKey: string,
    fieldEnd: string, quotedFieldEnd: string, lastFieldEnd: string, objectClose: string,
    separator: string, lineBreak: string,
    arrayClose: string, countKey: string, updatedKey: string, documentClose: string)

  /** The literals `getSatellitesAsJson` appends. */
  const Json: Layout := Layout(
    "{\n", "  \"satellites\": [\n",
    "    {\n", "      \"id\": ", "      \"name\": \"", "      \"launch_date\": \"", "      \"orbit_type\": \"", "      \"status\": \"",
    ",\n", "\",\n", "\"\n", "    }",
    ",", "\n",
    "  ],\n", "  \"total_count\": ", "  \"last_updated\": \"", "}")

  /**
   * What reading a document back relies on: a number ends at the comma that
   * starts its line end, a quoted value ends at the quote that starts its
   * line end, a separator is told apart from a line break, and an object is
   * told apart from the end of the array.
   */
  predicate WellFormed(l: Layout) {
    && |l.fieldEnd| > 0 && l.fieldEnd[0] == ','
    && |l.quotedFieldEnd| > 0 && l.quotedFieldEnd[0] == '"'
    && |l.lastFieldEnd| > 0 && l.lastFieldEnd[0] == '"'
    && |l.separator| > 0 && |l.lineBreak| > 0 && l.separator[0] != l.lineBreak[0]
    && |l.arrayClose| <= |l.objectOpen| && l.arrayClose != l.objectOpen[..|l.arrayClose|]
  }

  /** One line of a document: a key, a value and what ends the line. */
  function Line(key: string, value: string, end: string): string {
    key + (value + end)
  }

  /** Every record added to the list is an object of this shape. */
  function ObjectText(l: Layout, r: Record): string {
    l.objectOpen + (IdLine(l, r) + (NameLine(l, r) + (DateLine(l, r) + (OrbitLine(l, r) + (StatusLine(l, r) + l.objectClose)))))
  }

  function IdLine(l: Layout, r: Record): string {
    Line(l.idKey, IntToString(r.id), l.fieldEnd)
  }

  function NameLine(l: Layout, r: Record): string {
    Line(l.nameKey, r.name, l.quotedFieldEnd)
  }

  function DateLine(l: Layout, r: Record): string {
    Line(l.dateKey, r.launchDate, l.quotedFieldEnd)
  }

  function OrbitLine(l: Layout, r: Record): string {
    Line(l.orbitKey, r.orbitType, l.quotedFieldEnd)
  }

  function StatusLine(l: Layout, r: Record): string {
    Line(l.statusKey, r.status, l.lastFieldEnd)
  }

  /** A separator after every object but the last. */
  function Separator(l: Layout, i: int, n: int): string {
    if i < n - 1 then l.separator else ""
  }

  /** The objects from position i on, each followed by its separator and a line break. */
  function ObjectsFrom(l: Layout, sats: seq<Record>, i: nat): string
    decreases |sats| - i
  {
    if i >= |sats| then ""
    else ObjectText(l, sats[i]) + (Separator(l, i, |sats|) + (l.lineBreak + ObjectsFrom(l, sats, i + 1)))
  }

  /** What follows the array: the record count, the instant and the closing brace. */
  function Footer(l: Layout, count: nat, now: string): string {
    l.arrayClose + (Line(l.countKey, NatToString(count), l.fieldEnd) + (Line(l.updatedKey, now, l.lastFieldEnd) + l.documentClose))
  }

  /** The whole body for a list of records at an instant. */
  function Document(l: Layout, sats: seq<Record>, now: string): string {
    l.documentOpen + (l.arrayOpen + (ObjectsFrom(l, sats, 0) + Footer(l, |sats|, now)))
  }

  class SatelliteData {
    var satellites: seq<Record>

    /** `initializeSatelliteData`: ten successive `add` calls. */
    constructor ()
      ensures satellites == Seed()
    {
      satellites := [];
      satellites := satellites + [Record(1, "International Space Station", "1998-11-20", "Low Earth Orbit", "Active")];
      satellites := satellites + [Record(2, "Hubble Space Telescope", "1990-04-24", "Low Earth Orbit", "Active")];
      satellites := satellites + [Record(3, "James Webb Space Telescope", "2021-12-25", "Sun-Earth L2", "Active")];
      satellites := satellites + [Record(4, "Starlink-1007", "2019-05-23", "Low Earth Orbit", "Active")];
      satellites := satellites + [Record(5, "GPS III SV01", "2018-12-23", "Medium Earth Orbit", "Active")];
      satellites := satellites + [Record(6, "Sentinel-1A", "2014-04-03", "Sun-synchronous", "Active")];
      satellites := satellites + [Record(7, "GOES-16", "2016-11-19", "Geostationary", "Active")];
      satellites := satellites + [Record(8, "Terra", "1999-12-18", "Sun-synchronous", "Active")];
      satellites := satellites + [Record(9, "Aqua", "2002-05-04", "Sun-synchronous", "Active")];
      satellites := satellites + [Record(10, "Landsat 8", "2013-02-11", "Sun-synchronous", "Active")];
    }

    /**
     * `getSatellitesAsJson`, with the current instant passed in: the
     * document with the literals above.
     */
    method GetSatellitesAsJson(now: string) returns (json: string)
      ensures json == Document(Json, satellites, now)
    {
      json := WriteDocument(Json, now);
    }

    /** The appending loop of `getSatellitesAsJson`, for the pieces of a layout. */
    method WriteDocument(l: Layout, now: string) returns (json: string)
      ensures json == Document(l, satellites, now)
    {
      json := "";
      json := json + l.documentOpen;
      json := json + l.arrayOpen;
      StartStep(l, json, satellites);
      for i := 0 to |satellites|
        invariant json + ObjectsFrom(l, satellites, i) == l.documentOpen + (l.arrayOpen + ObjectsFrom(l, satellites, 0))
      {
        ghost var before := json;
        var sat := satellites[i];
        json := json + l.objectOpen;
        json := json + Line(l.idKey, IntToString(sat.id), l.fieldEnd);
        json := json + Line(l.nameKey, sat.name, l.quotedFieldEnd);
        json := json + Line(l.dateKey, sat.launchDate, l.quotedFieldEnd);
        json := json + Line(l.orbitKey, sat.orbitType, l.quotedFieldEnd);
        json := json + Line(l.statusKey, sat.status, l.lastFieldEnd);
        json := json + l.objectClose;
        ObjectStep(l, before, sat, json);
        ghost var withObject := json;
        if i < |satellites| - 1 {
          json := json + l.separator;
        }
        json := json + l.lineBreak;
        SeparatorStep(l, satellites, i, before, withObject, json);
      }
      ghost var objects := json;
      json := json + l.arrayClose;
      json := json + Line(l.countKey, NatToString(|satellites|), l.fieldEnd);
      json := json + Line(l.updatedKey, now, l.lastFieldEnd);
      json := json + l.documentClose;
      FooterStep(l, satellites, now, objects, json);
    }
  }

  /** The records the store starts with. */
  function Seed(): seq<Record> {
    [ Record(1, "International Space Station", "1998-11-20", "Low Earth Orbit", "Active"),
      Record(2, "Hubble Space Telescope", "1990-04-24", "Low Earth Orbit", "Active"),
      Record(3, "James Webb Space Telescope", "2021-12-25", "Sun-Earth L2", "Active"),
      Record(4, "Starlink-1007", "2019-05-23", "Low Earth Orbit", "Active"),
      Record(5, "GPS III SV01", "2018-12-23", "Medium Earth Orbit", "Active"),
      Record(6, "Sentinel-1A", "2014-04-03", "Sun-synchronous", "Active"),
      Record(7, "GOES-16", "2016-11-19", "Geostationary", "Active"),
      Record(8, "Terra", "1999-12-18", "Sun-synchronous", "Active"),
      Record(9, "Aqua", "2002-05-04", "Sun-synchronous", "Active"),
      Record(10, "Landsat 8", "2013-02-11", "Sun-synchronous", "Active") ]
  }

  /** The seed holds ten records numbered 1 to 10 in order, all `Active`. */
  lemma SeedIdsAndStatus()
    ensures |Seed()| == 10
    ensures forall i :: 0 <= i < |Seed()| ==> Seed()[i].id == i + 1 && Seed()[i].status == "Active"
  {
  }

  /** Every seeded launch date is a `yyyy-MM-dd` string. */
  lemma SeedDates()
    ensures forall i :: 0 <= i < |Seed()| ==> IsIsoDate(Seed()[i].launchDate)
  {
  }

  /** The first five seeded names hold no quote, backslash or control character. */
  lemma SeedNamesJsonSafe()
    ensures JsonSafe("International Space Station")
    ensures JsonSafe("Hubble Space Telescope")
    ensures JsonSafe("James Webb Space Telescope")
    ensures JsonSafe("Starlink-1007")
    ensures JsonSafe("GPS III SV01")
  {
  }

  /** Nor do the other five. */
  lemma SeedMoreNamesJsonSafe()
    ensures JsonSafe("Sentinel-1A")
    ensures JsonSafe("GOES-16")
    ensures JsonSafe("Terra")
    ensures JsonSafe("Aqua")
    ensures JsonSafe("Landsat 8")
  {
  }

  /** Nor do the seeded orbit types and status. */
  lemma SeedOrbitsJsonSafe()
    ensures JsonSafe("Low Earth Orbit")
    ensures JsonSafe("Sun-Earth L2")
    ensures JsonSafe("Medium Earth Orbit")
    ensures JsonSafe("Sun-synchronous")
    ensures JsonSafe("Geostationary")
    ensures JsonSafe("Active")
  {
  }

  /** A `yyyy-MM-dd` date holds only digits and dashes. */
  lemma IsoDateJsonSafe(s: string)
    requires IsIsoDate(s)
    ensures JsonSafe(s)
  {
    forall j | 0 <= j < |s| ensures s[j] != '"' && s[j] != '\\' && ' ' <= s[j] {
      if j != 4 && j != 7 {
        assert IsDigit(s[j]);
      }
    }
  }

  /** No seeded field needs escaping, so the served document is read back as it was written. */
  lemma SeedClean()
    ensures forall i :: 0 <= i < |Seed()| ==> Clean(Seed()[i])
  {
    SeedNamesJsonSafe();
    SeedMoreNamesJsonSafe();
    SeedOrbitsJsonSafe();
    SeedDates();
    forall i | 0 <= i < |Seed()| ensures JsonSafe(Seed()[i].launchDate) {
      IsoDateJsonSafe(Seed()[i].launchDate);
    }
  }

  /** The literals of `getSatellitesAsJson` meet what reading the document back relies on. */
  lemma JsonWellFormed()
    ensures WellFormed(Json)
  {
    assert Json.objectOpen[2] != Json.arrayClose[2];
  }

  // Appending piece by piece builds the right-nested texts above.

  lemma Nest3(x: string, a: string, b: string, c: string)
    ensures x + a + b + c == x + (a + (b + c))
  {
  }

  lemma Nest4(x: string, a: string, b: string, c: string, d: string)
    ensures x + a + b + c + d == x + (a + (b + (c + d)))
  {
  }

  lemma Nest7(x: string, a1: string, a2: string, a3: string, a4: string, a5: string, a6: string, a7: string)
    ensures x + a1 + a2 + a3 + a4 + a5 + a6 + a7 == x + (a1 + (a2 + (a3 + (a4 + (a5 + (a6 + a7))))))
  {
    Nest3(x, a1, a2, a3);
    Nest4(x, a1 + (a2 + a3), a4, a5, a6);
    Nest3(x, a1 + (a2 + a3), a4 + (a5 + a6), a7);
  }

  lemma NestAfter(a: string, b: string, c: string, d: string)
    ensures (a + (b + c)) + d == a + (b + (c + d))
  {
  }

  /** The two opening appends leave the objects and the footer to append. */
  lemma StartStep(l: Layout, json: string, sats: seq<Record>)
    requires json == "" + l.documentOpen + l.arrayOpen
    ensures json + ObjectsFrom(l, sats, 0) == l.documentOpen + (l.arrayOpen + ObjectsFrom(l, sats, 0))
  {
    Nest3("", l.documentOpen, l.arrayOpen, ObjectsFrom(l, sats, 0));
  }

  /** The appends for one record add exactly its object. */
  lemma ObjectStep(l: Layout, before: string, sat: Record, json: string)
    requires json == before + l.objectOpen
      + Line(l.idKey, IntToString(sat.id), l.fieldEnd)
      + Line(l.nameKey, sat.name, l.quotedFieldEnd)
      + Line(l.dateKey, sat.launchDate, l.quotedFieldEnd)
      + Line(l.orbitKey, sat.orbitType, l.quotedFieldEnd)
      + Line(l.statusKey, sat.status, l.lastFieldEnd)
      + l.objectClose
    ensures json == before + ObjectText(l, sat)
  {
    Nest7(before, l.objectOpen, IdLine(l, sat), NameLine(l, sat), DateLine(l, sat), OrbitLine(l, sat), StatusLine(l, sat), l.objectClose);
  }

  /** After an object, its separator and its line break, what is left to append is the objects after it. */
  lemma SeparatorStep(l: Layout, sats: seq<Record>, i: nat, before: string, withObject: string, json: string)
    requires i < |sats|
    requires withObject == before + ObjectText(l, sats[i])
    requires json == (if i < |sats| - 1 then withObject + l.separator else withObject) + l.lineBreak
    ensures json + ObjectsFrom(l, sats, i + 1) == before + ObjectsFrom(l, sats, i)
  {
    assert json == withObject + Separator(l, i, |sats|) + l.lineBreak;
    Nest4(before, ObjectText(l, sats[i]), Separator(l, i, |sats|), l.lineBreak, ObjectsFrom(l, sats, i + 1));
  }

  /** Once every object is appended, the closing appends complete the document. */
  lemma FooterStep(l: Layout, sats: seq<Record>, now: string, objects: string, json: string)
    requires objects + ObjectsFrom(l, sats, |sats|) == l.documentOpen + (l.arrayOpen + ObjectsFrom(l, sats, 0))
    requires json == objects + l.arrayClose
      + Line(l.countKey, NatToString(|sats|), l.fieldEnd)
      + Line(l.updatedKey, now, l.lastFieldEnd)
      + l.documentClose
    ensures json == Document(l, sats, now)
  {
    assert objects + ObjectsFrom(l, sats, |sats|) == objects;
    Nest4(objects, l.arrayClose, Line(l.countKey, NatToString(|sats|), l.fieldEnd), Line(l.updatedKey, now, l.lastFieldEnd), l.documentClose);
    NestAfter(l.documentOpen, l.arrayOpen, ObjectsFrom(l, sats, 0), Footer(l, |sats|, now));
  }

  // A reader for exactly the documents above.

  function StripPrefix(p: string, s: string): (r: Option<string>)
    ensures r.Some? ==> |r.value| == |s| - |p|
  {
    if p <= s then Some(s[|p|..]) else None
  }

  /** The text before the first `c`, and the text from that `c` on. */
  function SplitBefore(c: char, s: string): (r: Option<(string, string)>)
    ensures r.Some? ==> |r.value.1| <= |s|
  {
    if s == [] then None
    else if s[0] == c then Some(([], s))
    else match SplitBefore(c, s[1..])
      case None => None
      case Some((a, b)) => Some(([s[0]] + a, b))
  }

  /** A key followed by a quoted value: the value, and the text from its closing quote on. */
  function ParseQuoted(key: string, s: string): (r: Option<(string, string)>)
    ensures r.Some? ==> |r.value.1| <= |s| - |key|
  {
    var s1 :- StripPrefix(key, s);
    SplitBefore('"', s1)
  }

  /** The `id` line: its value, and the text after it. */
  function ParseIdField(l: Layout, s: string): (r: Option<(int, string)>)
    requires WellFormed(l)
    ensures r.Some? ==> |r.value.1| < |s|
  {
    var s1 :- StripPrefix(l.idKey, s);
    var p :- SplitBefore(l.fieldEnd[0], s1);
    var id :- ParseInt(p.0);
    var s2 :- StripPrefix(l.fieldEnd, p.1);
    Some((id, s2))
  }

  /** Reads one object and returns the text after it. */
  function ParseObject(l: Layout, s: string): (r: Option<(Record, string)>)
    requires WellFormed(l)
    ensures r.Some? ==> |r.value.1| < |s|
  {
    var s1 :- StripPrefix(l.objectOpen, s);
    var id :- ParseIdField(l, s1);
    var name :- ParseQuoted(l.nameKey, id.1);
    var s2 :- StripPrefix(l.quotedFieldEnd, name.1);
    var date :- ParseQuoted(l.dateKey, s2);
    var s3 :- StripPrefix(l.quotedFieldEnd, date.1);
    var orbit :- ParseQuoted(l.orbitKey, s3);
    var s4 :- StripPrefix(l.quotedFieldEnd, orbit.1);
    var status :- ParseQuoted(l.statusKey, s4);
    var s5 :- StripPrefix(l.lastFieldEnd, status.1);
    var s6 :- StripPrefix(l.objectClose, s5);
    Some((Record(id.0, name.0, date.0, orbit.0, status.0), s6))
  }

  /** Reads one or more objects, separated, each followed by a line break. */
  function ParseObjects(l: Layout, s: string): Option<(seq<Record>, string)>
    requires WellFormed(l)
    decreases |s|
  {
    var p :- ParseObject(l, s);
    if l.separator <= p.1 then
      var r1 :- StripPrefix(l.separator, p.1);
      var r2 :- StripPrefix(l.lineBreak, r1);
      var q :- ParseObjects(l, r2);
      Some(([p.0] + q.0, q.1))
    else
      var r :- StripPrefix(l.lineBreak, p.1);
      Some(([p.0], r))
  }

  /** Reads the array's contents, which end where the array's closing begins. */
  function ParseList(l: Layout, s: string): Option<(seq<Record>, string)>
    requires WellFormed(l)
  {
    if l.arrayClose <= s then Some(([], s)) else ParseObjects(l, s)
  }

  /** Reads the text after the array: `total_count`, `last_updated` and the closing brace. */
  function ParseFooter(l: Layout, s: string): Option<(nat, string)>
    requires WellFormed(l)
  {
    var s1 :- StripPrefix(l.arrayClose, s);
    var s2 :- StripPrefix(l.countKey, s1);
    var p :- SplitBefore(l.fieldEnd[0], s2);
    var count :- ParseNat(p.0);
    var s3 :- StripPrefix(l.fieldEnd, p.1);
    var now :- ParseQuoted(l.updatedKey, s3);
    var s4 :- StripPrefix(l.lastFieldEnd, now.1);
    if s4 == l.documentClose then Some((count, now.0)) else None
  }

  /** Reads a whole document: its records, its `total_count` and its `last_updated`. */
  function Decode(l: Layout, doc: string): Option<(seq<Record>, nat, string)>
    requires WellFormed(l)
  {
    var s1 :- StripPrefix(l.documentOpen, doc);
    var s2 :- StripPrefix(l.arrayOpen, s1);
    var list :- ParseList(l, s2);
    var footer :- ParseFooter(l, list.1);
    Some((list.0, footer.0, footer.1))
  }

  lemma StripPrefixConcat(p: string, t: string)
    ensures StripPrefix(p, p + t) == Some(t)
  {
    assert (p + t)[|p|..] == t;
  }

  lemma {:induction false} SplitBeforeConcat(c: char, a: string, t: string)
    requires c !in a && |t| > 0 && t[0] == c
    ensures SplitBefore(c, a + t) == Some((a, t))
  {
    if a == [] {
      assert a + t == t;
    } else {
      SplitBeforeConcat(c, a[1..], t);
      assert [a[0]] + a[1..] == a;
      assert (a + t)[0] == a[0];
      assert (a + t)[1..] == a[1..] + t;
    }
  }

  lemma ParseQuotedConcat(key: string, v: string, t: string)
    requires QuoteFree(v) && |t| > 0 && t[0] == '"'
    ensures ParseQuoted(key, key + (v + t)) == Some((v, t))
  {
    StripPrefixConcat(key, v + t);
    SplitBeforeConcat('"', v, t);
  }

  /** A line followed by more text, as the reader takes it apart. */
  lemma LineThen(key: string, value: string, end: string, t: string)
    ensures Line(key, value, end) + t == key + (value + (end + t))
  {
  }

  /** A quoted line reads back as its value, leaving its line end and what follows. */
  lemma ParseQuotedLine(key: string, value: string, end: string, t: string)
    requires QuoteFree(value) && |end| > 0 && end[0] == '"'
    ensures ParseQuoted(key, Line(key, value, end) + t) == Some((value, end + t))
  {
    LineThen(key, value, end, t);
    ParseQuotedConcat(key, value, end + t);
  }

  lemma ParseIdLine(l: Layout, r: Record, t: string)
    requires WellFormed(l)
    ensures ParseIdField(l, IdLine(l, r) + t) == Some((r.id, t))
  {
    var text := IntToString(r.id);
    LineThen(l.idKey, text, l.fieldEnd, t);
    StripPrefixConcat(l.idKey, text + (l.fieldEnd + t));
    assert l.fieldEnd[0] !in text;
    SplitBeforeConcat(l.fieldEnd[0], text, l.fieldEnd + t);
    ParseIntToString(r.id);
    StripPrefixConcat(l.fieldEnd, t);
  }

  lemma RightNest(a1: string, a2: string, a3: string, a4: string, a5: string, a6: string, a7: string, t: string)
    ensures (a1 + (a2 + (a3 + (a4 + (a5 + (a6 + a7)))))) + t == a1 + (a2 + (a3 + (a4 + (a5 + (a6 + (a7 + t))))))
  {
  }

  /** An object reads back as the record it was written from, leaving what follows it. */
  lemma ParseObjectText(l: Layout, r: Record, rest: string)
    requires WellFormed(l) && Clean(r)
    ensures ParseObject(l, ObjectText(l, r) + rest) == Some((r, rest))
  {
    CleanQuoteFree(r);
    var afterStatus := l.objectClose + rest;
    var afterOrbit := StatusLine(l, r) + afterStatus;
    var afterDate := OrbitLine(l, r) + afterOrbit;
    var afterName := DateLine(l, r) + afterDate;
    var afterId := NameLine(l, r) + afterName;
    RightNest(l.objectOpen, IdLine(l, r), NameLine(l, r), DateLine(l, r), OrbitLine(l, r), StatusLine(l, r), l.objectClose, rest);
    StripPrefixConcat(l.objectOpen, IdLine(l, r) + afterId);
    ParseIdLine(l, r, afterId);
    ParseQuotedLine(l.nameKey, r.name, l.quotedFieldEnd, afterName);
    StripPrefixConcat(l.quotedFieldEnd, afterName);
    ParseQuotedLine(l.dateKey, r.launchDate, l.quotedFieldEnd, afterDate);
    StripPrefixConcat(l.quotedFieldEnd, afterDate);
    ParseQuotedLine(l.orbitKey, r.orbitType, l.quotedFieldEnd, afterOrbit);
    StripPrefixConcat(l.quotedFieldEnd, afterOrbit);
    ParseQuotedLine(l.statusKey, r.status, l.lastFieldEnd, afterStatus);
    StripPrefixConcat(l.lastFieldEnd, afterStatus);
    StripPrefixConcat(l.objectClose, rest);
  }

  lemma ConsSlice<T>(s: seq<T>, i: nat)
    requires i < |s|
    ensures s[i..] == [s[i]] + s[i + 1..]
    ensures i == |s| - 1 ==> s[i..] == [s[i]]
  {
  }

  lemma NotPrefixByFirst(p: string, s: string)
    requires |p| > 0 && |s| > 0 && p[0] != s[0]
    ensures !(p <= s)
  {
  }

  /** After the last object come only its line break and what follows the array. */
  lemma LastObjectRest(l: Layout, sats: seq<Record>, i: nat, tail: string)
    requires WellFormed(l) && i == |sats| - 1
    ensures Separator(l, i, |sats|) + (l.lineBreak + (ObjectsFrom(l, sats, i + 1) + tail)) == l.lineBreak + tail
    ensures (l.lineBreak + tail)[0] == l.lineBreak[0]
  {
  }

  /** A non-empty list of objects begins with the opening of its first object. */
  lemma ObjectsStartWithObjectOpen(l: Layout, sats: seq<Record>, footer: string)
    requires |sats| > 0
    ensures l.objectOpen <= ObjectsFrom(l, sats, 0) + footer
  {
    var t := IdLine(l, sats[0]) + (NameLine(l, sats[0]) + (DateLine(l, sats[0]) + (OrbitLine(l, sats[0]) + (StatusLine(l, sats[0]) + l.objectClose))));
    var u := Separator(l, 0, |sats|) + (l.lineBreak + ObjectsFrom(l, sats, 1));
    NestAfter(l.objectOpen, t, u, footer);
    assert ObjectsFrom(l, sats, 0) + footer == l.objectOpen + ((t + u) + footer);
  }

  /** One object, its separator and its line break, then the objects after it. */
  lemma ObjectsFromThen(l: Layout, sats: seq<Record>, i: nat, tail: string)
    requires i < |sats|
    ensures ObjectsFrom(l, sats, i) + tail
      == ObjectText(l, sats[i]) + (Separator(l, i, |sats|) + (l.lineBreak + (ObjectsFrom(l, sats, i + 1) + tail)))
  {
  }

  /** An object followed by a separator: the reader goes on to the next object. */
  lemma ParseObjectsMore(l: Layout, s: string, r: Record, next: string, rest: seq<Record>, tail: string)
    requires WellFormed(l)
    requires ParseObject(l, s) == Some((r, l.separator + (l.lineBreak + next)))
    requires ParseObjects(l, next) == Some((rest, tail))
    ensures ParseObjects(l, s) == Some(([r] + rest, tail))
  {
    StripPrefixConcat(l.separator, l.lineBreak + next);
    StripPrefixConcat(l.lineBreak, next);
  }

  /** An object followed directly by a line break is the last one. */
  lemma ParseObjectsLast(l: Layout, s: string, r: Record, tail: string)
    requires WellFormed(l)
    requires ParseObject(l, s) == Some((r, l.lineBreak + tail))
    ensures ParseObjects(l, s) == Some(([r], tail))
  {
    NotPrefixByFirst(l.separator, l.lineBreak + tail);
    StripPrefixConcat(l.lineBreak, tail);
  }

  /** The objects from position i on read back as the records from i on. */
  lemma {:induction false} ParseObjectsFrom(l: Layout, sats: seq<Record>, i: nat, tail: string)
    requires WellFormed(l)
    requires i < |sats|
    requires forall r :: r in sats ==> Clean(r)
    ensures ParseObjects(l, ObjectsFrom(l, sats, i) + tail) == Some((sats[i..], tail))
    decreases |sats| - i
  {
    var next := ObjectsFrom(l, sats, i + 1) + tail;
    var more := Separator(l, i, |sats|) + (l.lineBreak + next);
    ObjectsFromThen(l, sats, i, tail);
    assert sats[i] in sats;
    ParseObjectText(l, sats[i], more);
    ConsSlice(sats, i);
    if i < |sats| - 1 {
      ParseObjectsFrom(l, sats, i + 1, tail);
      ParseObjectsMore(l, ObjectsFrom(l, sats, i) + tail, sats[i], next, sats[i + 1..], tail);
    } else {
      LastObjectRest(l, sats, i, tail);
      ParseObjectsLast(l, ObjectsFrom(l, sats, i) + tail, sats[i], tail);
    }
  }

  /** Text that opens an object is not the end of the array. */
  lemma ParseListObjects(l: Layout, s: string)
    requires WellFormed(l) && l.objectOpen <= s
    ensures ParseList(l, s) == ParseObjects(l, s)
  {
    assert s[..|l.arrayClose|] == l.objectOpen[..|l.arrayClose|];
  }

  /** The array's contents read back as the records, stopping where the array closes. */
  lemma ParseListText(l: Layout, sats: seq<Record>, footer: string)
    requires WellFormed(l)
    requires forall r :: r in sats ==> Clean(r)
    requires l.arrayClose <= footer
    ensures ParseList(l, ObjectsFrom(l, sats, 0) + footer) == Some((sats, footer))
  {
    var s := ObjectsFrom(l, sats, 0) + footer;
    if sats == [] {
      assert s == footer;
    } else {
      ParseObjectsFrom(l, sats, 0, footer);
      ObjectsStartWithObjectOpen(l, sats, footer);
      ParseListObjects(l, s);
      assert sats[0..] == sats;
    }
  }

  lemma ParseFooterText(l: Layout, count: nat, now: string)
    requires WellFormed(l) && QuoteFree(now)
    ensures ParseFooter(l, Footer(l, count, now)) == Some((count, now))
  {
    var text := NatToString(count);
    var rest := Line(l.updatedKey, now, l.lastFieldEnd) + l.documentClose;
    LineThen(l.countKey, text, l.fieldEnd, rest);
    StripPrefixConcat(l.arrayClose, Line(l.countKey, text, l.fieldEnd) + rest);
    StripPrefixConcat(l.countKey, text + (l.fieldEnd + rest));
    assert l.fieldEnd[0] !in text;
    SplitBeforeConcat(l.fieldEnd[0], text, l.fieldEnd + rest);
    ParseNatToString(count);
    StripPrefixConcat(l.fieldEnd, rest);
    ParseQuotedLine(l.updatedKey, now, l.lastFieldEnd, l.documentClose);
    StripPrefixConcat(l.lastFieldEnd, l.documentClose);
  }

  /**
   * A document reads back: its array holds exactly the records, in list
   * order and field for field, `total_count` is their number, and
   * `last_updated` is the instant it was built at.
   */
  lemma DecodeDocument(l: Layout, sats: seq<Record>, now: string)
    requires WellFormed(l)
    requires forall r :: r in sats ==> Clean(r)
    requires QuoteFree(now)
    ensures Decode(l, Document(l, sats, now)) == Some((sats, |sats|, now))
  {
    var footer := Footer(l, |sats|, now);
    var body := ObjectsFrom(l, sats, 0) + footer;
    StripPrefixConcat(l.documentOpen, l.arrayOpen + body);
    StripPrefixConcat(l.arrayOpen, body);
    ParseListText(l, sats, footer);
    ParseFooterText(l, |sats|, now);
  }

  /** The served document reads back as the seed, its size and the instant. */
  lemma DecodeServedSeed(now: string)
    requires QuoteFree(now)
    ensures WellFormed(Json) && Decode(Json, Document(Json, Seed(), now)) == Some((Seed(), 10, now))
  {
    JsonWellFormed();
    SeedIdsAndStatus();
    SeedClean();
    forall r | r in Seed() ensures Clean(r) {
      var i :| 0 <= i < |Seed()| && Seed()[i] == r;
    }
    DecodeDocument(Json, Seed(), now);
  }
}

=== FILE: collections.dfy ===
/**
 * Sequence helpers shared by the views: occurrence counts, the distinct
 * values of a list in first-seen order (what `[...new Set(xs)]` yields),
 * and sums of counts over a list of keys.
 */
module Collections {

  /** Number of occurrences of `x` in `xs`. */
  function Count<T(==)>(xs: seq<T>, x: T): nat {
    multiset(xs)[x]
  }

  predicate NoDuplicates<T(==)>(s: seq<T>) {
    forall i, j :: 0 <= i < j < |s| ==> s[i] != s[j]
  }

  /**
   * The distinct elements of `xs` in the order of their first occurrence,
   * built the way a `Set` is filled: walk the list and add what is new.
   */
  function Distinct<T(==,!new)>(xs: seq<T>): (r: seq<T>)
    ensures NoDuplicates(r)
    ensures forall x :: x in r <==> x in xs
    ensures |r| <= |xs|
  {
    if xs == [] then []
    else
      var d := Distinct(xs[..|xs| - 1]);
      var x := xs[|xs| - 1];
      assert forall y :: y in xs <==> y in xs[..|xs| - 1] || y == x by {
        assert xs == xs[..|xs| - 1] + [x];
      }
      if x in d then d else d + [x]
  }

  /** Index of the first occurrence of `x` in `xs`. */
  function FirstIndex<T(==)>(xs: seq<T>, x: T): (i: nat)
    requires x in xs
    ensures i < |xs| && xs[i] == x
    ensures forall k :: 0 <= k < i ==> xs[k] != x
  {
    if xs[0] == x then 0 else 1 + FirstIndex(xs[1..], x)
  }

  lemma FirstIndexPrefix<T>(xs: seq<T>, n: nat, x: T)
    requires n <= |xs| && x in xs[..n]
    ensures FirstIndex(xs[..n], x) == FirstIndex(xs, x)
  {
    var i, j := FirstIndex(xs[..n], x), FirstIndex(xs, x);
    assert xs[..n][i] == xs[i];
    assert xs[..n][j] == xs[j] by {
      assert j <= i;
    }
  }

  /**
   * `Distinct` lists values in the order in which they are first seen:
   * an earlier entry first occurs earlier in the input.
   */
  lemma {:induction false} DistinctFirstSeen<T(!new)>(xs: seq<T>, i: nat, j: nat)
    requires i < j < |Distinct(xs)|
    ensures FirstIndex(xs, Distinct(xs)[i]) < FirstIndex(xs, Distinct(xs)[j])
  {
    var n := |xs| - 1;
    var init := xs[..n];
    var d := Distinct(init);
    var x := Distinct(xs)[i];
    var y := Distinct(xs)[j];
    assert x in init by { assert d[i] == x; }
    FirstIndexPrefix(xs, n, x);
    if j < |d| {
      assert d[j] == y;
      FirstIndexPrefix(xs, n, y);
      DistinctFirstSeen(init, i, j);
    } else {
      // y is the last element of xs, seen here for the first time
      assert y == xs[n] && y !in d;
      assert y !in init;
      assert FirstIndex(xs, y) == n by {
        forall k | 0 <= k < n ensures xs[k] != y {
          assert xs[k] == init[k];
        }
      }
    }
  }

  lemma {:induction false} NoDuplicatesCardinality<T>(s: seq<T>)
    requires NoDuplicates(s)
    ensures |set x | x in s| == |s|
  {
    if s != [] {
      var t := s[..|s| - 1];
      var x := s[|s| - 1];
      assert NoDuplicates(t);
      NoDuplicatesCardinality(t);
      assert (set y | y in s) == (set y | y in t) + {x} by {
        assert s == t + [x];
      }
      assert x !in (set y | y in t);
    }
  }

  /** The number of distinct values is the size of the set of values. */
  lemma DistinctCardinality<T(!new)>(xs: seq<T>)
    ensures |Distinct(xs)| == |set x | x in xs|
  {
    var d := Distinct(xs);
    NoDuplicatesCardinality(d);
    assert (set x | x in d) == (set x | x in xs);
  }

  /** A list without repetitions holds each of its elements exactly once. */
  lemma {:induction false} CountNoDuplicates<T>(d: seq<T>, x: T)
    requires NoDuplicates(d)
    ensures Count(d, x) == if x in d then 1 else 0
  {
    if d != [] {
      var t := d[..|d| - 1];
      assert d == t + [d[|d| - 1]];
      assert NoDuplicates(t);
      CountNoDuplicates(t, x);
      assert d[|d| - 1] !in t by {
        forall k | 0 <= k < |t| ensures t[k] != d[|d| - 1] {
          assert t[k] == d[k];
        }
      }
    }
  }

  /** Sum, over the keys listed in `d`, of the number of times each occurs in `xs`. */
  function SumCounts<T(==)>(xs: seq<T>, d: seq<T>): nat {
    if d == [] then 0 else Count(xs, d[0]) + SumCounts(xs, d[1..])
  }

  lemma {:induction false} SumCountsSnoc<T>(xs: seq<T>, x: T, d: seq<T>)
    ensures SumCounts(xs + [x], d) == SumCounts(xs, d) + Count(d, x)
  {
    if d != [] {
      SumCountsSnoc(xs, x, d[1..]);
      assert d == [d[0]] + d[1..];
    }
  }

  /**
   * Counting each key of a repetition-free list that covers every value of
   * `xs` accounts for every element of `xs` exactly once.
   */
  lemma {:induction false} SumCountsCovering<T>(xs: seq<T>, d: seq<T>)
    requires NoDuplicates(d)
    requires forall x :: x in xs ==> x in d
    ensures SumCounts(xs, d) == |xs|
  {
    if xs == [] {
      SumCountsEmpty(d);
    } else {
      var t := xs[..|xs| - 1];
      var x := xs[|xs| - 1];
      assert xs == t + [x];
      SumCountsCovering(t, d);
      SumCountsSnoc(t, x, d);
      CountNoDuplicates(d, x);
    }
  }

  lemma {:induction false} SumCountsEmpty<T>(d: seq<T>)
    ensures SumCounts([], d) == 0
  {
    if d != [] {
      SumCountsEmpty(d[1..]);
    }
  }
}

=== FILE: dashboard.dfy ===
/**
 * The dashboard: chart data grouped by orbit type, by status or by launch
 * year, chosen by the selected metric, and the metric cards beside the
 * chart. Each generator folds the records into a counting object (whose
 * keys keep their insertion order) and then lists its entries.
 */
module Dashboard {

  import opened Collections
  import opened Satellites
  import opened Home

  /** One chart entry: `{name, value}` for a distribution, `{year, launches}` for the timeline. */
  datatype ChartEntry = Slice(name: string, value: nat) | Launches(year: int, launches: nat)

  const OrbitDistributionMetric: string := "orbit_distribution"
  const LaunchTimelineMetric: string := "launch_timeline"
  const StatusOverviewMetric: string := "status_overview"

  /** The number a chart entry stands for. */
  function Weight(e: ChartEntry): nat {
    match e
    case Slice(_, v) => v
    case Launches(_, n) => n
  }

  function Total(data: seq<ChartEntry>): nat {
    if data == [] then 0 else Weight(data[0]) + Total(data[1..])
  }

  /**
   * The `reduce` into `acc`: `acc[k] = (acc[k] || 0) + 1` for every key.
   * `order` is the order in which keys were first added to `acc`.
   */
  method CountByKey<K(==,!new)>(keys: seq<K>) returns (order: seq<K>, counts: map<K, nat>)
    ensures order == Distinct(keys)
    ensures forall k :: k in counts <==> k in keys
    ensures forall k :: k in counts ==> counts[k] == Count(keys, k)
  {
    order, counts := [], map[];
    for i := 0 to |keys|
      invariant order == Distinct(keys[..i])
      invariant forall k :: k in counts <==> k in keys[..i]
      invariant forall k :: k in counts ==> counts[k] == Count(keys[..i], k)
    {
      var k := keys[i];
      PrefixStep(keys, i);
      var previous := if k in counts then counts[k] else 0;
      if k !in counts {
        order := order + [k];
      }
      ghost var before := counts;
      counts := counts[k := previous + 1];
      forall x | x in counts ensures counts[x] == Count(keys[..i + 1], x) {
        CountStep(keys, i, x);
        if x != k {
          assert counts[x] == before[x];
        }
      }
    }
    assert keys[..|keys|] == keys;
  }

  /** What one more key changes in the distinct keys, the counts and membership of a prefix. */
  lemma PrefixStep<K(!new)>(keys: seq<K>, i: nat)
    requires i < |keys|
    ensures Distinct(keys[..i + 1]) == if keys[i] in Distinct(keys[..i]) then Distinct(keys[..i]) else Distinct(keys[..i]) + [keys[i]]
    ensures forall x :: x in keys[..i + 1] <==> x in keys[..i] || x == keys[i]
  {
    assert keys[..i + 1][..i] == keys[..i];
    assert keys[..i + 1] == keys[..i] + [keys[i]];
  }

  lemma CountStep<K>(keys: seq<K>, i: nat, x: K)
    requires i < |keys|
    ensures Count(keys[..i + 1], x) == Count(keys[..i], x) + if x == keys[i] then 1 else 0
  {
    assert keys[..i + 1] == keys[..i] + [keys[i]];
  }

  /** One `{name, value}` entry per distinct key, in first-seen order, with its number of occurrences. */
  function Tally(keys: seq<string>): (r: seq<ChartEntry>)
    ensures |r| == |Distinct(keys)|
  {
    var d := Distinct(keys);
    seq(|d|, i requires 0 <= i < |d| => Slice(d[i], Count(keys, d[i])))
  }

  /**
   * A distribution has exactly one entry per distinct key, named after it,
   * in the order the keys are first seen, and each entry counts the records
   * with that key (so none is zero).
   */
  lemma TallyEntries(keys: seq<string>, i: nat)
    requires i < |Tally(keys)|
    ensures Tally(keys)[i].Slice?
    ensures Tally(keys)[i].name == Distinct(keys)[i]
    ensures Tally(keys)[i].value == Count(keys, Tally(keys)[i].name) >= 1
  {
    assert Distinct(keys)[i] in Distinct(keys);
  }

  lemma {:induction false} TotalOfSlices(keys: seq<string>, d: seq<string>)
    ensures Total(seq(|d|, i requires 0 <= i < |d| => Slice(d[i], Count(keys, d[i])))) == SumCounts(keys, d)
  {
    if d != [] {
      var all := seq(|d|, i requires 0 <= i < |d| => Slice(d[i], Count(keys, d[i])));
      var tail := d[1..];
      TotalOfSlices(keys, tail);
      assert all[1..] == seq(|tail|, i requires 0 <= i < |tail| => Slice(tail[i], Count(keys, tail[i])));
    }
  }

  /** The values of a distribution add up to the number of records. */
  lemma TallyTotal(keys: seq<string>)
    ensures Total(Tally(keys)) == |keys|
  {
    TotalOfSlices(keys, Distinct(keys));
    SumCountsCovering(keys, Distinct(keys));
  }

  /** `generateOrbitDistribution` */
  method OrbitDistribution(sats: seq<Satellite>) returns (data: seq<ChartEntry>)
    ensures data == Tally(OrbitTypes(sats))
    ensures Total(data) == |sats|
  {
    var order, counts := CountByKey(OrbitTypes(sats));
    data := seq(|order|, i requires 0 <= i < |order| => Slice(order[i], counts[order[i]]));
    TallyTotal(OrbitTypes(sats));
  }

  /** `generateStatusOverview` */
  method StatusOverview(sats: seq<Satellite>) returns (data: seq<ChartEntry>)
    ensures data == Tally(Statuses(sats))
    ensures Total(data) == |sats|
  {
    var order, counts := CountByKey(Statuses(sats));
    data := seq(|order|, i requires 0 <= i < |order| => Slice(order[i], counts[order[i]]));
    TallyTotal(Statuses(sats));
  }

  function YearOf(e: ChartEntry): int {
    if e.Launches? then e.year else 0
  }

  /** The sort comparator's `a.year - b.year` is not positive. */
  predicate YearsInOrder(x: ChartEntry, y: ChartEntry) {
    YearOf(x) <= YearOf(y)
  }

  function YearsOf(data: seq<ChartEntry>): (r: seq<int>)
    ensures |r| == |data|
    ensures forall i :: 0 <= i < |data| ==> r[i] == YearOf(data[i])
  {
    seq(|data|, i requires 0 <= i < |data| => YearOf(data[i]))
  }

  /** The first n entries of the array are in ascending order of year. */
  ghost predicate SortedPrefix(a: array<ChartEntry>, n: int)
    reads a
  {
    forall p, q :: 0 <= p < q < n && q < a.Length ==> YearsInOrder(a[p], a[q])
  }

  /** `.sort((a, b) => a.year - b.year)` on the timeline entries, in place. */
  method SortByYear(a: array<ChartEntry>)
    modifies a
    ensures forall i, j :: 0 <= i < j < a.Length ==> YearOf(a[i]) <= YearOf(a[j])
    ensures multiset(a[..]) == multiset(old(a[..]))
  {
    var i := 0;
    while i < a.Length
      invariant 0 <= i <= a.Length
      invariant SortedPrefix(a, i)
      invariant multiset(a[..]) == multiset(old(a[..]))
    {
      InsertLast(a, i);
      i := i + 1;
    }
  }

  /** One pass of the insertion sort: moves `a[i]` left into the sorted prefix before it. */
  method InsertLast(a: array<ChartEntry>, i: int)
    requires 0 <= i < a.Length && SortedPrefix(a, i)
    modifies a
    ensures SortedPrefix(a, i + 1)
    ensures multiset(a[..]) == multiset(old(a[..]))
  {
    var j := i;
    while j > 0 && !YearsInOrder(a[j - 1], a[j])
      invariant 0 <= j <= i
      invariant forall p, q :: 0 <= p < q <= i && p != j && q != j ==> YearsInOrder(a[p], a[q])
      invariant forall q :: j < q <= i ==> YearsInOrder(a[j], a[q])
      invariant multiset(a[..]) == multiset(old(a[..]))
    {
      a[j - 1], a[j] := a[j], a[j - 1];
      j := j - 1;
    }
    forall p, q | 0 <= p < q <= i ensures YearsInOrder(a[p], a[q]) {
      if q == j && p < j - 1 {
        assert YearsInOrder(a[p], a[j - 1]);
      }
    }
  }

  /** Rearranging entries whose years are all different leaves their years all different. */
  lemma DistinctYearsPermutation(s: seq<ChartEntry>, t: seq<ChartEntry>)
    requires multiset(s) == multiset(t)
    requires NoDuplicates(YearsOf(t))
    ensures NoDuplicates(YearsOf(s))
  {
    assert NoDuplicates(t) by {
      forall p, q | 0 <= p < q < |t| ensures t[p] != t[q] {
        assert YearsOf(t)[p] != YearsOf(t)[q];
      }
    }
    forall i, j | 0 <= i < j < |s| ensures YearOf(s[i]) != YearOf(s[j]) {
      if YearOf(s[i]) == YearOf(s[j]) {
        assert s[i] in multiset(t) && s[j] in multiset(t);
        var p :| 0 <= p < |t| && t[p] == s[i];
        var q :| 0 <= q < |t| && t[q] == s[j];
        assert YearsOf(t)[p] == YearsOf(t)[q];
        assert s[i] == s[j];
        assert s == s[..i] + [s[i]] + s[i + 1..j] + [s[j]] + s[j + 1..];
        assert multiset(s)[s[i]] >= 2;
        CountNoDuplicates(t, s[i]);
        assert false;
      }
    }
  }

  lemma {:induction false} TotalOfLaunches(years: seq<int>, data: seq<ChartEntry>)
    requires forall i :: 0 <= i < |data| ==> data[i].Launches? && data[i].launches == Count(years, data[i].year)
    ensures Total(data) == SumCounts(years, YearsOf(data))
  {
    if data != [] {
      TotalOfLaunches(years, data[1..]);
      assert YearsOf(data)[1..] == YearsOf(data[1..]);
    }
  }

  /**
   * `generateLaunchTimeline`: one `{year, launches}` entry per distinct
   * launch year, strictly ascending by year, each counting the records
   * launched that year; the counts add up to the number of records.
   */
  method LaunchTimeline(sats: seq<Satellite>) returns (data: seq<ChartEntry>)
    ensures IsTimeline(data, sats)
    ensures Total(data) == |sats|
  {
    var years := LaunchYears(sats);
    var order, counts := CountByKey(years);
    assert forall i :: 0 <= i < |order| ==> order[i] in counts by {
      forall i | 0 <= i < |order| ensures order[i] in counts {
        assert order[i] in Distinct(years);
      }
    }
    var a := new ChartEntry[|order|](i requires 0 <= i < |order| => Launches(order[i], counts[order[i]]));
    ghost var entries := a[..];
    SortByYear(a);
    data := a[..];
    SortedCountsAreTimeline(sats, entries, data);
  }

  /**
   * Entries that count each distinct launch year once, sorted by year, make
   * a timeline whose counts add up to the number of records.
   */
  lemma SortedCountsAreTimeline(sats: seq<Satellite>, entries: seq<ChartEntry>, data: seq<ChartEntry>)
    requires YearsOf(entries) == Distinct(LaunchYears(sats))
    requires forall k :: 0 <= k < |entries| ==> entries[k].Launches? && entries[k].launches == Count(LaunchYears(sats), entries[k].year)
    requires multiset(data) == multiset(entries)
    requires forall i, j :: 0 <= i < j < |data| ==> YearOf(data[i]) <= YearOf(data[j])
    ensures IsTimeline(data, sats)
    ensures Total(data) == |sats|
  {
    var years := LaunchYears(sats);
    DistinctYearsPermutation(data, entries);
    forall i | 0 <= i < |data|
      ensures data[i].Launches? && data[i].launches == Count(years, data[i].year)
    {
      assert data[i] in multiset(entries);
    }
    forall y | y in years ensures y in YearsOf(data) {
      assert y in YearsOf(entries);
      var k :| 0 <= k < |entries| && YearsOf(entries)[k] == y;
      assert entries[k] in multiset(data);
      var m :| 0 <= m < |data| && data[m] == entries[k];
      assert YearsOf(data)[m] == y;
    }
    forall y | y in YearsOf(data) ensures y in years {
      var m :| 0 <= m < |data| && YearsOf(data)[m] == y;
      assert data[m] in multiset(entries);
      var k :| 0 <= k < |entries| && entries[k] == data[m];
      assert YearsOf(entries)[k] == y;
    }
    forall i, j | 0 <= i < j < |data| ensures data[i].year < data[j].year {
      assert YearsOf(data)[i] != YearsOf(data)[j];
    }
    TotalOfLaunches(years, data);
    SumCountsCovering(years, YearsOf(data));
  }

  /**
   * `processChartData`: the generator named by the metric, falling back to
   * the orbit distribution for any other name.
   */
  method ProcessChartData(metric: string, sats: seq<Satellite>) returns (data: seq<ChartEntry>)
    ensures metric != LaunchTimelineMetric && metric != StatusOverviewMetric ==> data == Tally(OrbitTypes(sats))
    ensures metric == StatusOverviewMetric ==> data == Tally(Statuses(sats))
    ensures metric == LaunchTimelineMetric ==> IsTimeline(data, sats)
    ensures Total(data) == |sats|
  {
    if metric == OrbitDistributionMetric {
      data := OrbitDistribution(sats);
    } else if metric == LaunchTimelineMetric {
      data := LaunchTimeline(sats);
    } else if metric == StatusOverviewMetric {
      data := StatusOverview(sats);
    } else {
      data := OrbitDistribution(sats);
    }
  }

  /** What the launch timeline promises about its entries. */
  ghost predicate IsTimeline(data: seq<ChartEntry>, sats: seq<Satellite>) {
    && (forall i :: 0 <= i < |data| ==> data[i].Launches? && data[i].launches == Count(LaunchYears(sats), data[i].year))
    && (forall i, j :: 0 <= i < j < |data| ==> data[i].year < data[j].year)
    && (forall y :: y in YearsOf(data) <==> y in LaunchYears(sats))
  }

  /** What the chart shows for a metric and a list of records. */
  ghost predicate IsChartFor(metric: string, sats: seq<Satellite>, data: seq<ChartEntry>) {
    && (metric != LaunchTimelineMetric && metric != StatusOverviewMetric ==> data == Tally(OrbitTypes(sats)))
    && (metric == StatusOverviewMetric ==> data == Tally(Statuses(sats)))
    && (metric == LaunchTimelineMetric ==> IsTimeline(data, sats))
    && Total(data) == |sats|
  }

  /** Up to `slice(0, 8)` of the active records, for the side list. */
  function ActiveMissionList(sats: seq<Satellite>): (r: seq<Satellite>)
    ensures |r| <= 8
    ensures r <= ActiveSatellites(sats)
    ensures |r| == if |ActiveSatellites(sats)| < 8 then |ActiveSatellites(sats)| else 8
  {
    var active := ActiveSatellites(sats);
    if |active| <= 8 then active else active[..8]
  }

  /**
   * The Active Missions card agrees with the status overview: when any
   * record is `Active`, the overview has an `Active` entry whose value is
   * the number on the card.
   */
  lemma ActiveCardMatchesOverview(sats: seq<Satellite>)
    ensures |ActiveSatellites(sats)| > 0 ==>
      exists i :: 0 <= i < |Tally(Statuses(sats))| && Tally(Statuses(sats))[i] == Slice(ActiveStatus, |ActiveSatellites(sats)|)
    ensures |ActiveSatellites(sats)| == 0 ==> forall e :: e in Tally(Statuses(sats)) ==> e.name != ActiveStatus
  {
    ActiveSatellitesSpec(sats);
    var keys := Statuses(sats);
    var d := Distinct(keys);
    if |ActiveSatellites(sats)| > 0 {
      assert ActiveStatus in keys;
      var i :| 0 <= i < |d| && d[i] == ActiveStatus;
      assert Tally(keys)[i] == Slice(ActiveStatus, |ActiveSatellites(sats)|);
    } else {
      forall e | e in Tally(keys) ensures e.name != ActiveStatus {
        var i :| 0 <= i < |Tally(keys)| && Tally(keys)[i] == e;
        TallyEntries(keys, i);
      }
    }
  }

  /**
   * The metric cards (the numbers of `Home.ComputeStats`) agree with the
   * orbit distribution: the Total Satellites card is the sum of its values,
   * the Orbit Types card is its number of slices, and the Active Missions
   * card counts the records the side list is drawn from.
   */
  lemma MetricCardsMatchCharts(sats: seq<Satellite>)
    ensures ComputeStats(sats).total == Total(Tally(OrbitTypes(sats)))
    ensures ComputeStats(sats).orbits == |Tally(OrbitTypes(sats))|
    ensures ComputeStats(sats).active == |ActiveSatellites(sats)|
  {
    TallyTotal(OrbitTypes(sats));
    OrbitTypeCountBounds(sats);
    ActiveSatellitesSpec(sats);
  }

  /**
   * The dashboard's state: the records it was given, the selected metric
   * and the chart data, which the effect recomputes only for a non-empty
   * list of records.
   */
  class DashboardView {
    var satellites: seq<Satellite>
    var selectedMetric: string
    var chartData: seq<ChartEntry>

    constructor (sats: seq<Satellite>)
      ensures satellites == sats && selectedMetric == OrbitDistributionMetric
      ensures |sats| > 0 ==> IsChartFor(selectedMetric, sats, chartData)
      ensures |sats| == 0 ==> chartData == []
    {
      satellites := sats;
      selectedMetric := OrbitDistributionMetric;
      chartData := [];
      new;
      RunEffect();
    }

    /** The effect: an empty list of records leaves the previous chart data in place. */
    method RunEffect()
      modifies this`chartData
      ensures |satellites| > 0 ==> IsChartFor(selectedMetric, satellites, chartData)
      ensures |satellites| == 0 ==> chartData == old(chartData)
    {
      if |satellites| > 0 {
        chartData := ProcessChartData(selectedMetric, satellites);
      }
    }

    /** New records arrive from the parent; the effect runs. */
    method SetSatellites(sats: seq<Satellite>)
      modifies this
      ensures satellites == sats && selectedMetric == old(selectedMetric)
      ensures |sats| > 0 ==> IsChartFor(selectedMetric, sats, chartData)
      ensures |sats| == 0 ==> chartData == old(chartData)
    {
      satellites := sats;
      RunEffect();
    }

    /** Picking a metric from the drop-down; the same metric again changes nothing. */
    method SelectMetric(metric: string)
      modifies this
      ensures satellites == old(satellites) && selectedMetric == metric
      ensures metric != old(selectedMetric) && |satellites| > 0 ==> IsChartFor(metric, satellites, chartData)
      ensures metric == old(selectedMetric) || |satellites| == 0 ==> chartData == old(chartData)
    {
      if metric != selectedMetric {
        selectedMetric := metric;
        RunEffect();
      }
    }
  }
}

=== FILE: history_filter.dfy ===
/**
 * The history view's filter: a free-text search over name and orbit type,
 * ANDed with exact-match orbit and status selections (`'all'` matches
 * everything). The filter is `Array.prototype.filter`, so it keeps the
 * input order.
 */
module HistoryFilter {

  import opened Text
  import opened Satellites

  const All: string := "all"

  datatype Criteria = Criteria(searchTerm: string, orbit: string, status: string)

  /** The criteria the view starts with: empty search, every orbit, every status. */
  const NoCriteria: Criteria := Criteria("", All, All)

  predicate MatchesSearch(s: Satellite, term: string) {
    Includes(Lower(s.name), Lower(term)) || Includes(Lower(s.orbitType), Lower(term))
  }

  predicate Matches(s: Satellite, c: Criteria) {
    && MatchesSearch(s, c.searchTerm)
    && (c.orbit == All || s.orbitType == c.orbit)
    && (c.status == All || s.status == c.status)
  }

  /**
   * A record is kept exactly when the case-folded search term occurs in the
   * case-folded name or orbit type, and the orbit and status selections
   * are `all` or equal the record's own value.
   */
  lemma MatchesIff(s: Satellite, c: Criteria)
    ensures Matches(s, c) <==>
      && ((exists i :: OccursAt(Lower(s.name), Lower(c.searchTerm), i))
          || (exists i :: OccursAt(Lower(s.orbitType), Lower(c.searchTerm), i)))
      && (c.orbit == All || s.orbitType == c.orbit)
      && (c.status == All || s.status == c.status)
  {
    IncludesIff(Lower(s.name), Lower(c.searchTerm));
    IncludesIff(Lower(s.orbitType), Lower(c.searchTerm));
  }

  /** `satellites.filter(...)`: only input records that match, never more than the input. */
  function Filter(sats: seq<Satellite>, c: Criteria): (r: seq<Satellite>)
    ensures |r| <= |sats|
    ensures forall s :: s in r ==> s in sats && Matches(s, c)
  {
    if sats == [] then []
    else if Matches(sats[0], c) then [sats[0]] + Filter(sats[1..], c)
    else Filter(sats[1..], c)
  }

  /** `a` can be obtained from `b` by deleting elements. */
  predicate IsSubsequence(a: seq<Satellite>, b: seq<Satellite>)
    decreases |b|
  {
    if a == [] then true
    else if b == [] then false
    else if a[0] == b[0] then IsSubsequence(a[1..], b[1..])
    else IsSubsequence(a, b[1..])
  }

  /** The filtered list is the input with some records removed, the rest in their original order. */
  lemma {:induction false} FilterIsSubsequence(sats: seq<Satellite>, c: Criteria)
    ensures IsSubsequence(Filter(sats, c), sats)
  {
    if sats != [] {
      FilterIsSubsequence(sats[1..], c);
      var rest := Filter(sats[1..], c);
      if !Matches(sats[0], c) && rest != [] {
        // rest only holds matching records, so it cannot start with sats[0]
        FilterCounts(sats[1..], c);
        assert rest[0] in multiset(rest);
        assert rest[0] != sats[0];
      }
    }
  }

  /**
   * Every matching record is kept as often as it occurs in the input, and
   * no other record is kept.
   */
  lemma {:induction false} FilterCounts(sats: seq<Satellite>, c: Criteria)
    ensures forall s :: multiset(Filter(sats, c))[s] == if Matches(s, c) then multiset(sats)[s] else 0
  {
    if sats != [] {
      FilterCounts(sats[1..], c);
      assert sats == [sats[0]] + sats[1..];
    }
  }

  /** Applying the same criteria to an already filtered list changes nothing. */
  lemma {:induction false} FilterIdempotent(sats: seq<Satellite>, c: Criteria)
    ensures Filter(Filter(sats, c), c) == Filter(sats, c)
  {
    if sats != [] {
      FilterIdempotent(sats[1..], c);
      if Matches(sats[0], c) {
        var r := [sats[0]] + Filter(sats[1..], c);
        assert r[0] == sats[0] && r[1..] == Filter(sats[1..], c);
      }
    }
  }

  /** With an empty search term and both selections at `all`, every record is kept. */
  lemma {:induction false} FilterNoCriteria(sats: seq<Satellite>)
    ensures Filter(sats, NoCriteria) == sats
  {
    if sats != [] {
      assert Lower(NoCriteria.searchTerm) == [] <= Lower(sats[0].name);
      FilterNoCriteria(sats[1..]);
    }
  }

  /** The criteria that keep exactly the `Active` records. */
  const ActiveCriteria: Criteria := Criteria("", All, ActiveStatus)

  /**
   * The dashboard's and the home page's active list is the history filter
   * with an empty search, every orbit and status `Active`, so it is the
   * input with the other records removed, in input order.
   */
  lemma {:induction false} ActiveIsStatusFilter(sats: seq<Satellite>)
    ensures ActiveSatellites(sats) == Filter(sats, ActiveCriteria)
    ensures IsSubsequence(ActiveSatellites(sats), sats)
  {
    if sats != [] {
      ActiveIsStatusFilter(sats[1..]);
      assert Lower(ActiveCriteria.searchTerm) == [] <= Lower(sats[0].name);
    }
    FilterIsSubsequence(sats, ActiveCriteria);
  }
}

=== FILE: history_pages.dfy ===
/**
 * Pagination of the history table: ten records per page, pages numbered
 * from 1, and the window of page-number buttons shown under the table.
 */
module HistoryPages {

  import Collections

  const ItemsPerPage: nat := 10

  /** `Math.ceil(n / itemsPerPage)`: zero pages for an empty list. */
  function TotalPages(n: nat): (r: nat)
    ensures n <= r * ItemsPerPage < n + ItemsPerPage
  {
    (n + ItemsPerPage - 1) / ItemsPerPage
  }

  function Min(a: int, b: int): int {
    if a <= b then a else b
  }

  /**
   * `s.slice((p - 1) * itemsPerPage, (p - 1) * itemsPerPage + itemsPerPage)`:
   * a slice that starts past the end is empty.
   */
  function Page<T>(s: seq<T>, p: int): (r: seq<T>)
    requires p >= 1
    ensures |r| <= ItemsPerPage
    ensures r == [] <==> p > TotalPages(|s|)
  {
    var start := (p - 1) * ItemsPerPage;
    if start >= |s| then [] else s[start..Min(start + ItemsPerPage, |s|)]
  }

  /** Pages `1..k` laid end to end. */
  function PagesUpTo<T>(s: seq<T>, k: nat): seq<T> {
    if k == 0 then [] else PagesUpTo(s, k - 1) + Page(s, k)
  }

  /** Pages 1 to k together hold the first k * 10 records (or all of them). */
  lemma {:induction false} PagesUpToPrefix<T>(s: seq<T>, k: nat)
    ensures PagesUpTo(s, k) == s[..Min(k * ItemsPerPage, |s|)]
  {
    if k > 0 {
      PagesUpToPrefix(s, k - 1);
      var start := (k - 1) * ItemsPerPage;
      if start < |s| {
        assert s[..start] + s[start..Min(start + ItemsPerPage, |s|)] == s[..Min(k * ItemsPerPage, |s|)];
      }
    }
  }

  /**
   * The pages partition the list: pages `1..TotalPages` laid end to end give
   * back every record, in order, and every page after the last is empty.
   */
  lemma PagesPartition<T>(s: seq<T>)
    ensures PagesUpTo(s, TotalPages(|s|)) == s
    ensures forall p :: p > TotalPages(|s|) ==> Page(s, p) == []
  {
    PagesUpToPrefix(s, TotalPages(|s|));
  }

  /** Page p shows records `(p - 1) * 10` up to (not including) `min(p * 10, n)`. */
  lemma PageContents<T>(s: seq<T>, p: int, i: int)
    requires 1 <= p <= TotalPages(|s|)
    requires 0 <= i < |Page(s, p)|
    ensures (p - 1) * ItemsPerPage + i < Min(p * ItemsPerPage, |s|)
    ensures Page(s, p)[i] == s[(p - 1) * ItemsPerPage + i]
  {
  }

  /** Page button k is rendered: the first, the last, or within two of the current page. */
  predicate ButtonShown(k: int, current: int, total: int) {
    k == 1 || k == total || (current - 2 <= k && k <= current + 2)
  }

  /** The numbers of the rendered page buttons, from k up to total. */
  function ButtonsFrom(current: int, total: int, k: int): (r: seq<int>)
    decreases total - k
  {
    if k > total then []
    else if ButtonShown(k, current, total) then [k] + ButtonsFrom(current, total, k + 1)
    else ButtonsFrom(current, total, k + 1)
  }

  /**
   * `[...Array(totalPages)].map(...)`: the page-number buttons, left to
   * right. Button m appears exactly when it is a page number that is the
   * first, the last, or within two of the current page.
   */
  function PageButtons(current: int, total: int): (r: seq<int>)
    ensures StrictlyIncreasing(r)
    ensures forall m :: m in r <==> 1 <= m <= total && ButtonShown(m, current, total)
  {
    ButtonsFromSpec(current, total, 1);
    ButtonsFrom(current, total, 1)
  }

  predicate StrictlyIncreasing(s: seq<int>) {
    forall i, j :: 0 <= i < j < |s| ==> s[i] < s[j]
  }

  lemma {:induction false} ButtonsFromSpec(current: int, total: int, k: int)
    ensures StrictlyIncreasing(ButtonsFrom(current, total, k))
    ensures forall m :: m in ButtonsFrom(current, total, k) <==> k <= m <= total && ButtonShown(m, current, total)
    decreases total - k
  {
    if k <= total {
      ButtonsFromSpec(current, total, k + 1);
      var t := ButtonsFrom(current, total, k + 1);
      forall j | 0 <= j < |t| ensures k < t[j] {
        assert t[j] in t;
      }
    }
  }

  /** However many pages there are, at most seven page-number buttons are rendered. */
  lemma PageButtonsAtMostSeven(current: int, total: int)
    ensures |PageButtons(current, total)| <= 7
  {
    var r := PageButtons(current, total);
    var window := {current - 2, current - 1, current, current + 1, current + 2};
    var shown := set m | m in r;
    assert shown <= {1, total} + window;
    SubsetCardinality(shown, {1, total} + window);
    assert Collections.NoDuplicates(r);
    Collections.NoDuplicatesCardinality(r);
  }

  lemma SubsetCardinality(a: set<int>, b: set<int>)
    requires a <= b
    ensures |a| <= |b|
  {
    assert b == a + (b - a);
  }
}

=== FILE: history_sort.dfy ===
/**
 * The history view's sort. The view sorts its freshly filtered array in
 * place with a comparator that, for `asc`, answers 1 when the first key is
 * greater and -1 otherwise (for `desc`, 1 when it is smaller): it never
 * answers 0, so nothing is promised about the order of records with equal
 * keys. Launch dates compare chronologically, the other keys as strings.
 */
module HistorySort {

  import opened Text
  import opened Satellites

  /** The column headers that can be clicked: `name`, `launch_date`, `orbit_type`, `status`. */
  datatype SortKey = Name | LaunchDate | OrbitType | Status

  datatype SortOrder = Asc | Desc

  /** `a[sortBy] < b[sortBy]`, with dates compared as dates. */
  predicate KeyLess(a: Satellite, b: Satellite, key: SortKey) {
    match key
    case Name => StrLess(a.name, b.name)
    case LaunchDate => DateBefore(a.launchDate, b.launchDate)
    case OrbitType => StrLess(a.orbitType, b.orbitType)
    case Status => StrLess(a.status, b.status)
  }

  /** The comparator passed to `filtered.sort`. */
  function Compare(a: Satellite, b: Satellite, key: SortKey, order: SortOrder): int {
    match order
    case Asc => if KeyLess(b, a, key) then 1 else -1
    case Desc => if KeyLess(a, b, key) then 1 else -1
  }

  /**
   * The comparator never answers 0, and a record whose key comes first in
   * the chosen direction is put first.
   */
  lemma CompareSpec(a: Satellite, b: Satellite, key: SortKey, order: SortOrder)
    ensures Compare(a, b, key, order) == 1 || Compare(a, b, key, order) == -1
    ensures order == Asc && KeyLess(a, b, key) ==> Compare(a, b, key, order) == -1
    ensures order == Desc && KeyLess(b, a, key) ==> Compare(a, b, key, order) == -1
  {
    KeyLessAsymmetric(a, b, key);
  }

  /** `a` may stand before `b`: the comparator does not ask to swap them. */
  predicate InOrder(a: Satellite, b: Satellite, key: SortKey, order: SortOrder) {
    Compare(a, b, key, order) < 0
  }

  predicate Sorted(s: seq<Satellite>, key: SortKey, order: SortOrder) {
    forall i, j :: 0 <= i < j < |s| ==> InOrder(s[i], s[j], key, order)
  }

  lemma KeyLessAsymmetric(a: Satellite, b: Satellite, key: SortKey)
    ensures KeyLess(a, b, key) ==> !KeyLess(b, a, key)
  {
    match key
    case Name => StrLessAsymmetric(a.name, b.name);
    case LaunchDate =>
    case OrbitType => StrLessAsymmetric(a.orbitType, b.orbitType);
    case Status => StrLessAsymmetric(a.status, b.status);
  }

  /** Being "not less" is transitive: keys form a total preorder. */
  lemma KeyNotLessTransitive(a: Satellite, b: Satellite, c: Satellite, key: SortKey)
    requires !KeyLess(b, a, key) && !KeyLess(c, b, key)
    ensures !KeyLess(c, a, key)
  {
    match key
    case Name => StrNotLessTransitive(a.name, b.name, c.name);
    case LaunchDate =>
    case OrbitType => StrNotLessTransitive(a.orbitType, b.orbitType, c.orbitType);
    case Status => StrNotLessTransitive(a.status, b.status, c.status);
  }

  lemma StrNotLessTransitive(a: string, b: string, c: string)
    requires !StrLess(b, a) && !StrLess(c, b)
    ensures !StrLess(c, a)
  {
    if a != b && StrLess(c, a) {
      StrLessTotal(a, b);
      StrLessTransitive(c, a, b);
    }
  }

  /**
   * The comparator answers -1 for a record compared with itself, and so
   * never reports two records as equal: it is not a consistent comparator.
   */
  lemma InOrderReflexive(a: Satellite, key: SortKey, order: SortOrder)
    ensures Compare(a, a, key, order) == -1
    ensures InOrder(a, a, key, order)
  {
    match key
    case Name => StrLessIrreflexive(a.name);
    case LaunchDate =>
    case OrbitType => StrLessIrreflexive(a.orbitType);
    case Status => StrLessIrreflexive(a.status);
  }

  /** Of any two records, at least one may stand before the other. */
  lemma InOrderTotal(a: Satellite, b: Satellite, key: SortKey, order: SortOrder)
    ensures InOrder(a, b, key, order) || InOrder(b, a, key, order)
  {
    KeyLessAsymmetric(a, b, key);
  }

  lemma InOrderTransitive(a: Satellite, b: Satellite, c: Satellite, key: SortKey, order: SortOrder)
    requires InOrder(a, b, key, order) && InOrder(b, c, key, order)
    ensures InOrder(a, c, key, order)
  {
    match order
    case Asc => KeyNotLessTransitive(a, b, c, key);
    case Desc => KeyNotLessTransitive(c, b, a, key);
  }

  /**
   * `filtered.sort(comparator)`: rearranges the array in place so that no
   * later record compares before an earlier one.
   */
  method SortInPlace(a: array<Satellite>, key: SortKey, order: SortOrder)
    modifies a
    ensures Sorted(a[..], key, order)
    ensures multiset(a[..]) == multiset(old(a[..]))
  {
    var i := 0;
    while i < a.Length
      invariant 0 <= i <= a.Length
      invariant SortedPrefix(a, i, key, order)
      invariant multiset(a[..]) == multiset(old(a[..]))
    {
      InsertLast(a, i, key, order);
      i := i + 1;
    }
  }

  /** The first n records of the array are in order. */
  ghost predicate SortedPrefix(a: array<Satellite>, n: int, key: SortKey, order: SortOrder)
    reads a
  {
    forall p, q :: 0 <= p < q < n && q < a.Length ==> InOrder(a[p], a[q], key, order)
  }

  /** One pass of the insertion sort: moves `a[i]` left into the sorted prefix before it. */
  method InsertLast(a: array<Satellite>, i: int, key: SortKey, order: SortOrder)
    requires 0 <= i < a.Length && SortedPrefix(a, i, key, order)
    modifies a
    ensures SortedPrefix(a, i + 1, key, order)
    ensures multiset(a[..]) == multiset(old(a[..]))
  {
    var j := i;
    while j > 0 && !InOrder(a[j - 1], a[j], key, order)
      invariant 0 <= j <= i
      invariant forall p, q :: 0 <= p < q <= i && p != j && q != j ==> InOrder(a[p], a[q], key, order)
      invariant forall q :: j < q <= i ==> InOrder(a[j], a[q], key, order)
      invariant multiset(a[..]) == multiset(old(a[..]))
    {
      InOrderTotal(a[j - 1], a[j], key, order);
      a[j - 1], a[j] := a[j], a[j - 1];
      j := j - 1;
    }
    forall p, q | 0 <= p < q <= i ensures InOrder(a[p], a[q], key, order) {
      if q == j && p < j - 1 {
        InOrderTransitive(a[p], a[j - 1], a[j], key, order);
      }
    }
  }

  function Reverse(s: seq<Satellite>): (r: seq<Satellite>)
    ensures |r| == |s|
    ensures forall i :: 0 <= i < |s| ==> r[i] == s[|s| - 1 - i]
  {
    if s == [] then [] else Reverse(s[1..]) + [s[0]]
  }

  /**
   * A list sorted ascending by a key, read backwards, is sorted descending
   * by that key, and the other way round.
   */
  lemma ReverseSorted(s: seq<Satellite>, key: SortKey)
    ensures Sorted(s, key, Asc) <==> Sorted(Reverse(s), key, Desc)
  {
    var r := Reverse(s);
    if Sorted(s, key, Asc) {
      forall i, j | 0 <= i < j < |r| ensures InOrder(r[i], r[j], key, Desc) {
        assert InOrder(s[|s| - 1 - j], s[|s| - 1 - i], key, Asc);
      }
    }
    if Sorted(r, key, Desc) {
      forall i, j | 0 <= i < j < |s| ensures InOrder(s[i], s[j], key, Asc) {
        assert InOrder(r[|s| - 1 - j], r[|s| - 1 - i], key, Desc);
      }
    }
  }
}

=== FILE: history_view.dfy ===
/**
 * The state of the satellite history view: the records it was given, the
 * search and filter selections, the sort column and direction, the current
 * page, and the filtered-and-sorted list that the effect recomputes
 * whenever any of the first five change (and resets the page to 1).
 */
module HistoryView {

  import opened Text
  import opened Collections
  import opened Satellites
  import opened HistoryFilter
  import opened HistorySort
  import opened HistoryPages

  function Flip(order: SortOrder): SortOrder {
    match order
    case Asc => Desc
    case Desc => Asc
  }

  class HistoryView {
    var satellites: seq<Satellite>
    var searchTerm: string
    var selectedOrbit: string
    var selectedStatus: string
    var sortBy: SortKey
    var sortOrder: SortOrder
    var currentPage: int
    var filtered: seq<Satellite>

    function CurrentCriteria(): Criteria
      reads this
    {
      Criteria(searchTerm, selectedOrbit, selectedStatus)
    }

    /**
     * The displayed list is the filtered input in sorted order, and the
     * current page is a page that exists (page 1 when there are none).
     */
    ghost predicate Valid()
      reads this
    {
      && multiset(filtered) == multiset(Filter(satellites, CurrentCriteria()))
      && Sorted(filtered, sortBy, sortOrder)
      && 1 <= currentPage
      && (currentPage == 1 || currentPage <= PageCount())
    }

    function PageCount(): nat
      reads this
    {
      TotalPages(|filtered|)
    }

    /** Pagination controls are rendered only when there is more than one page, that is, more than ten rows. */
    predicate ShowPagination()
      reads this
      ensures ShowPagination() <==> |filtered| > ItemsPerPage
    {
      PageCount() > 1
    }

    /** The rows of the table: the current page of the displayed list. */
    function Visible(): (r: seq<Satellite>)
      reads this
      requires Valid()
      ensures |r| <= ItemsPerPage
      ensures forall s :: s in r ==> s in satellites && Matches(s, CurrentCriteria())
    {
      var r := Page(filtered, currentPage);
      assert forall s :: s in r ==> s in filtered by {
        forall s | s in r ensures s in filtered {
          var i :| 0 <= i < |r| && r[i] == s;
          PageContents(filtered, currentPage, i);
        }
      }
      assert forall s :: s in filtered ==> s in satellites && Matches(s, CurrentCriteria()) by {
        FilterCounts(satellites, CurrentCriteria());
        forall s | s in filtered ensures s in satellites && Matches(s, CurrentCriteria()) {
          assert s in multiset(filtered);
        }
      }
      r
    }

    /** The entries of the orbit drop-down, after `all`: each orbit type of the records, once. */
    function OrbitOptions(): (r: seq<string>)
      reads this
      ensures NoDuplicates(r)
      ensures forall o :: o in r <==> exists s :: s in satellites && s.orbitType == o
    {
      OrbitTypesMembers(satellites);
      Distinct(OrbitTypes(satellites))
    }

    /** The entries of the status drop-down, after `all`: each status of the records, once. */
    function StatusOptions(): (r: seq<string>)
      reads this
      ensures NoDuplicates(r)
      ensures forall t :: t in r <==> exists s :: s in satellites && s.status == t
    {
      StatusesMembers(satellites);
      Distinct(Statuses(satellites))
    }

    /** The view as it is first rendered and after its effect has run once. */
    constructor (sats: seq<Satellite>)
      ensures satellites == sats && CurrentCriteria() == NoCriteria
      ensures sortBy == Name && sortOrder == Asc
      ensures Valid() && currentPage == 1
      ensures multiset(filtered) == multiset(sats)
    {
      satellites := sats;
      searchTerm := "";
      selectedOrbit := All;
      selectedStatus := All;
      sortBy := Name;
      sortOrder := Asc;
      currentPage := 1;
      filtered := [];
      new;
      ApplyFilters();
      FilterNoCriteria(sats);
    }

    /** The effect: filter, sort the filtered array in place, store it, go to page 1. */
    method ApplyFilters()
      modifies this
      ensures Valid() && currentPage == 1
      ensures satellites == old(satellites) && CurrentCriteria() == old(CurrentCriteria())
      ensures sortBy == old(sortBy) && sortOrder == old(sortOrder)
    {
      var f := Filter(satellites, CurrentCriteria());
      var a := new Satellite[|f|](i requires 0 <= i < |f| => f[i]);
      assert a[..] == f;
      SortInPlace(a, sortBy, sortOrder);
      filtered := a[..];
      currentPage := 1;
    }

    /** New records arrive from the parent (always a new array, so the effect runs). */
    method SetSatellites(sats: seq<Satellite>)
      modifies this
      ensures Valid() && currentPage == 1 && satellites == sats
      ensures CurrentCriteria() == old(CurrentCriteria())
      ensures sortBy == old(sortBy) && sortOrder == old(sortOrder)
    {
      satellites := sats;
      ApplyFilters();
    }

    /** Typing in the search box; an unchanged value does not re-run the effect. */
    method SetSearchTerm(term: string)
      requires Valid()
      modifies this
      ensures Valid() && searchTerm == term
      ensures satellites == old(satellites) && selectedOrbit == old(selectedOrbit)
      ensures selectedStatus == old(selectedStatus)
      ensures sortBy == old(sortBy) && sortOrder == old(sortOrder)
      ensures term != old(searchTerm) ==> currentPage == 1
      ensures term == old(searchTerm) ==> currentPage == old(currentPage) && filtered == old(filtered)
    {
      if term != searchTerm {
        searchTerm := term;
        ApplyFilters();
      }
    }

    /** Choosing an orbit in the drop-down. */
    method SetOrbitFilter(orbit: string)
      requires Valid()
      modifies this
      ensures Valid() && selectedOrbit == orbit
      ensures satellites == old(satellites) && searchTerm == old(searchTerm)
      ensures selectedStatus == old(selectedStatus)
      ensures sortBy == old(sortBy) && sortOrder == old(sortOrder)
      ensures orbit != old(selectedOrbit) ==> currentPage == 1
      ensures orbit == old(selectedOrbit) ==> currentPage == old(currentPage) && filtered == old(filtered)
    {
      if orbit != selectedOrbit {
        selectedOrbit := orbit;
        ApplyFilters();
      }
    }

    /** Choosing a status in the drop-down. */
    method SetStatusFilter(status: string)
      requires Valid()
      modifies this
      ensures Valid() && selectedStatus == status
      ensures satellites == old(satellites) && searchTerm == old(searchTerm)
      ensures selectedOrbit == old(selectedOrbit)
      ensures sortBy == old(sortBy) && sortOrder == old(sortOrder)
      ensures status != old(selectedStatus) ==> currentPage == 1
      ensures status == old(selectedStatus) ==> currentPage == old(currentPage) && filtered == old(filtered)
    {
      if status != selectedStatus {
        selectedStatus := status;
        ApplyFilters();
      }
    }

    /**
     * A click on a column header: the same column flips the direction, a
     * new column is sorted ascending. Either way the sort changes, so the
     * list is re-sorted and the page reset.
     */
    method HandleSort(field: SortKey)
      modifies this
      ensures Valid() && currentPage == 1
      ensures old(sortBy) == field ==> sortBy == field && sortOrder == Flip(old(sortOrder))
      ensures old(sortBy) != field ==> sortBy == field && sortOrder == Asc
      ensures satellites == old(satellites) && CurrentCriteria() == old(CurrentCriteria())
    {
      if sortBy == field {
        sortOrder := Flip(sortOrder);
      } else {
        sortBy := field;
        sortOrder := Asc;
      }
      ApplyFilters();
    }

    /** Previous: disabled on page 1, and only rendered when there are several pages. */
    method PreviousPage()
      requires Valid()
      modifies this`currentPage
      ensures Valid()
      ensures currentPage == if old(ShowPagination()) && old(currentPage) != 1 then old(currentPage) - 1 else old(currentPage)
      ensures ShowPagination() ==> 1 <= currentPage <= PageCount()
    {
      if ShowPagination() && currentPage != 1 {
        currentPage := currentPage - 1;
      }
    }

    /** Next: disabled on the last page, and only rendered when there are several pages. */
    method NextPage()
      requires Valid()
      modifies this`currentPage
      ensures Valid()
      ensures currentPage == if old(ShowPagination()) && old(currentPage) != old(PageCount()) then old(currentPage) + 1 else old(currentPage)
      ensures ShowPagination() ==> 1 <= currentPage <= PageCount()
    {
      if ShowPagination() && currentPage != PageCount() {
        currentPage := currentPage + 1;
      }
    }

    /** A click on page button k, which exists only when it is rendered. */
    method GoToPage(k: int)
      requires Valid()
      modifies this`currentPage
      ensures Valid()
      ensures currentPage == if old(ShowPagination()) && k in PageButtons(old(currentPage), PageCount()) then k else old(currentPage)
      ensures ShowPagination() ==> 1 <= currentPage <= PageCount()
    {
      if ShowPagination() && k in PageButtons(currentPage, PageCount()) {
        currentPage := k;
      }
    }
  }

  /** `getStatusBadgeClass`: the badge colour for a status, ignoring case; unknown statuses are a warning. */
  function BadgeClass(status: string): (r: string)
    ensures r == "badge bg-success" <==> Lower(status) == "active"
    ensures r == "badge bg-secondary" <==> Lower(status) == "inactive"
    ensures r == "badge bg-danger" <==> Lower(status) == "decommissioned"
    ensures r == "badge bg-warning" <==> Lower(status) !in {"active", "inactive", "decommissioned"}
  {
    match Lower(status)
    case "active" => "badge bg-success"
    case "inactive" => "badge bg-secondary"
    case "decommissioned" => "badge bg-danger"
    case _ => "badge bg-warning"
  }

  /** Statuses that differ only in letter case get the same badge. */
  lemma BadgeClassIgnoresCase(status: string)
    ensures BadgeClass(Lower(status)) == BadgeClass(status)
  {
    LowerIdempotent(status);
  }
}

=== FILE: home.dfy ===
/**
 * The landing page's quick statistics (the same three numbers head the
 * dashboard's metric cards): how many records there are, how many are
 * `Active`, and how many distinct orbit types they use.
 */
module Home {

  import opened Collections
  import opened Satellites

  datatype Stats = Stats(total: nat, active: nat, orbits: nat)

  /** `stats` without `lastUpdate`, which reads the clock. */
  function ComputeStats(sats: seq<Satellite>): (r: Stats)
    ensures r.total == |sats|
    ensures r.active == Count(Statuses(sats), ActiveStatus) <= r.total
    ensures r.orbits == |set s | s in sats :: s.orbitType| <= r.total
    ensures r.orbits == 0 <==> sats == []
  {
    ActiveSatellitesSpec(sats);
    OrbitTypeCountBounds(sats);
    Stats(|sats|, |ActiveSatellites(sats)|, OrbitTypeCount(sats))
  }

  /** Every record active exactly when the active count reaches the total. */
  lemma AllActiveIff(sats: seq<Satellite>)
    ensures ComputeStats(sats).active == ComputeStats(sats).total <==> forall s :: s in sats ==> s.status == ActiveStatus
  {
    var statuses := Statuses(sats);
    if forall s :: s in sats ==> s.status == ActiveStatus {
      assert forall i :: 0 <= i < |statuses| ==> statuses[i] == ActiveStatus by {
        forall i | 0 <= i < |statuses| ensures statuses[i] == ActiveStatus {
          assert sats[i] in sats;
        }
      }
      AllEqualCount(statuses, ActiveStatus);
    } else {
      var s :| s in sats && s.status != ActiveStatus;
      var i :| 0 <= i < |sats| && sats[i] == s;
      CountBelowLength(statuses, ActiveStatus, i);
    }
  }

  lemma {:induction false} AllEqualCount(xs: seq<string>, x: string)
    requires forall i :: 0 <= i < |xs| ==> xs[i] == x
    ensures Count(xs, x) == |xs|
  {
    if xs != [] {
      AllEqualCount(xs[1..], x);
      assert xs == [xs[0]] + xs[1..];
    }
  }

  lemma CountBelowLength(xs: seq<string>, x: string, i: nat)
    requires i < |xs| && xs[i] != x
    ensures Count(xs, x) < |xs|
  {
    assert xs == xs[..i] + [xs[i]] + xs[i + 1..];
    assert multiset(xs)[x] == multiset(xs[..i])[x] + multiset(xs[i + 1..])[x];
  }
}

=== FILE: satellites.dfy ===
/**
 * The satellite record as the frontend receives it from `/satellites`,
 * and the per-record projections and counts that several views share.
 */
module Satellites {

  import opened Collections

  /** A calendar date; the frontend parses `launch_date` into one of these. */
  datatype Date = Date(year: int, month: int, day: int)

  /** Chronological order on dates, as `<` on JavaScript `Date` values. */
  predicate DateBefore(a: Date, b: Date) {
    a.year < b.year
    || (a.year == b.year && a.month < b.month)
    || (a.year == b.year && a.month == b.month && a.day < b.day)
  }

  datatype Satellite = Satellite(
    id: int,
    name: string,
    launchDate: Date,
    orbitType: string,
    status: string)

  const ActiveStatus: string := "Active"

  /** `satellites.map(s => s.orbit_type)` */
  function OrbitTypes(sats: seq<Satellite>): (r: seq<string>)
    ensures |r| == |sats|
    ensures forall i :: 0 <= i < |sats| ==> r[i] == sats[i].orbitType
  {
    seq(|sats|, i requires 0 <= i < |sats| => sats[i].orbitType)
  }

  /** `satellites.map(s => s.status)` */
  function Statuses(sats: seq<Satellite>): (r: seq<string>)
    ensures |r| == |sats|
    ensures forall i :: 0 <= i < |sats| ==> r[i] == sats[i].status
  {
    seq(|sats|, i requires 0 <= i < |sats| => sats[i].status)
  }

  /** An orbit type is listed exactly when some record has it. */
  lemma OrbitTypesMembers(sats: seq<Satellite>)
    ensures forall o :: o in OrbitTypes(sats) <==> exists s :: s in sats && s.orbitType == o
  {
    forall o ensures o in OrbitTypes(sats) <==> exists s :: s in sats && s.orbitType == o {
      if o in OrbitTypes(sats) {
        var i :| 0 <= i < |sats| && OrbitTypes(sats)[i] == o;
        assert sats[i] in sats;
      }
      if exists s :: s in sats && s.orbitType == o {
        var s :| s in sats && s.orbitType == o;
        var i :| 0 <= i < |sats| && sats[i] == s;
        assert OrbitTypes(sats)[i] == o;
      }
    }
  }

  /** A status is listed exactly when some record has it. */
  lemma StatusesMembers(sats: seq<Satellite>)
    ensures forall t :: t in Statuses(sats) <==> exists s :: s in sats && s.status == t
  {
    forall t ensures t in Statuses(sats) <==> exists s :: s in sats && s.status == t {
      if t in Statuses(sats) {
        var i :| 0 <= i < |sats| && Statuses(sats)[i] == t;
        assert sats[i] in sats;
      }
      if exists s :: s in sats && s.status == t {
        var s :| s in sats && s.status == t;
        var i :| 0 <= i < |sats| && sats[i] == s;
        assert Statuses(sats)[i] == t;
      }
    }
  }

  /** The launch year of every record, in list order. */
  function LaunchYears(sats: seq<Satellite>): (r: seq<int>)
    ensures |r| == |sats|
    ensures forall i :: 0 <= i < |sats| ==> r[i] == sats[i].launchDate.year
  {
    seq(|sats|, i requires 0 <= i < |sats| => sats[i].launchDate.year)
  }

  /** `satellites.filter(s => s.status === 'Active')` */
  function ActiveSatellites(sats: seq<Satellite>): (r: seq<Satellite>)
    ensures |r| <= |sats|
    ensures forall s :: s in r ==> s in sats && s.status == ActiveStatus
  {
    if sats == [] then []
    else if sats[0].status == ActiveStatus then [sats[0]] + ActiveSatellites(sats[1..])
    else ActiveSatellites(sats[1..])
  }

  /**
   * The active list holds exactly the records whose status is `Active`,
   * and it has as many entries as there are `Active` statuses.
   */
  lemma ActiveSatellitesSpec(sats: seq<Satellite>)
    ensures forall s :: s in ActiveSatellites(sats) <==> s in sats && s.status == ActiveStatus
    ensures |ActiveSatellites(sats)| == Count(Statuses(sats), ActiveStatus)
    ensures |ActiveSatellites(sats)| <= |sats|
  {
    ActiveSatellitesCounts(sats);
    forall s | s in sats && s.status == ActiveStatus ensures s in ActiveSatellites(sats) {
      assert multiset(ActiveSatellites(sats))[s] > 0;
    }
    ActiveSatellitesLength(sats);
  }

  lemma {:induction false} ActiveSatellitesLength(sats: seq<Satellite>)
    ensures |ActiveSatellites(sats)| == Count(Statuses(sats), ActiveStatus)
  {
    if sats != [] {
      ActiveSatellitesLength(sats[1..]);
      assert Statuses(sats) == [sats[0].status] + Statuses(sats[1..]);
    }
  }

  /** Every `Active` record is kept as often as it occurs, and no other record is kept. */
  lemma {:induction false} ActiveSatellitesCounts(sats: seq<Satellite>)
    ensures forall s :: multiset(ActiveSatellites(sats))[s] == if s.status == ActiveStatus then multiset(sats)[s] else 0
  {
    if sats != [] {
      ActiveSatellitesCounts(sats[1..]);
      assert sats == [sats[0]] + sats[1..];
    }
  }

  /** The number of different orbit types, `[...new Set(satellites.map(s => s.orbit_type))].length`. */
  function OrbitTypeCount(sats: seq<Satellite>): nat {
    |Distinct(OrbitTypes(sats))|
  }

  /**
   * There are no more orbit types than records, none exactly when there
   * are no records, and the count is the size of the set of orbit types.
   */
  lemma OrbitTypeCountBounds(sats: seq<Satellite>)
    ensures OrbitTypeCount(sats) <= |sats|
    ensures OrbitTypeCount(sats) == 0 <==> sats == []
    ensures OrbitTypeCount(sats) == |set s | s in sats :: s.orbitType|
  {
    var d := Distinct(OrbitTypes(sats));
    if sats != [] {
      assert OrbitTypes(sats)[0] in d;
    }
    DistinctCardinality(OrbitTypes(sats));
    assert (set o | o in OrbitTypes(sats)) == (set s | s in sats :: s.orbitType) by {
      forall o | o in OrbitTypes(sats) ensures o in (set s | s in sats :: s.orbitType) {
        var i :| 0 <= i < |sats| && OrbitTypes(sats)[i] == o;
        assert sats[i] in sats;
      }
      forall s | s in sats ensures s.orbitType in OrbitTypes(sats) {
        var i :| 0 <= i < |sats| && sats[i] == s;
        assert OrbitTypes(sats)[i] == s.orbitType;
      }
    }
  }
}

=== FILE: text.dfy ===
/**
 * String operations that the satellite views and the backend rely on:
 * ASCII case folding (`toLowerCase`), substring search (`includes`),
 * the `<`/`>` order JavaScript uses on strings, and decimal rendering of
 * integers (`${n}` in JavaScript, `StringBuilder.append(int)` in Java),
 * together with a decimal reader that inverts it.
 */
module Text {

  import opened Wrappers

  predicate IsUpper(c: char) {
    'A' <= c <= 'Z'
  }

  function LowerChar(c: char): char {
    if IsUpper(c) then (c as int + 32) as char else c
  }

  /** ASCII `toLowerCase`: capitals become small letters, everything else is kept. */
  function Lower(s: string): (r: string)
    ensures |r| == |s|
    ensures forall i :: 0 <= i < |r| ==> !IsUpper(r[i])
    ensures forall i :: 0 <= i < |s| && !IsUpper(s[i]) ==> r[i] == s[i]
    ensures forall i :: 0 <= i < |s| && IsUpper(s[i]) ==> r[i] as int == s[i] as int + 32
  {
    seq(|s|, i requires 0 <= i < |s| => LowerChar(s[i]))
  }

  /** Folding twice is folding once. */
  lemma LowerIdempotent(s: string)
    ensures Lower(Lower(s)) == Lower(s)
  {
  }

  /** `hay.includes(needle)`: needle occurs somewhere in hay (the empty string occurs everywhere). */
  function Includes(hay: string, needle: string): bool
    decreases |hay|
  {
    needle <= hay || (|hay| > 0 && Includes(hay[1..], needle))
  }

  ghost predicate OccursAt(hay: string, needle: string, i: int) {
    0 <= i && i + |needle| <= |hay| && hay[i..i + |needle|] == needle
  }

  /** `Includes` holds exactly when the needle occurs at some position of the haystack. */
  lemma {:induction false} IncludesIff(hay: string, needle: string)
    ensures Includes(hay, needle) <==> exists i :: OccursAt(hay, needle, i)
    decreases |hay|
  {
    if needle <= hay {
      assert OccursAt(hay, needle, 0);
    } else if |hay| == 0 {
      forall i ensures !OccursAt(hay, needle, i) {
      }
    } else {
      IncludesIff(hay[1..], needle);
      if Includes(hay[1..], needle) {
        var i :| OccursAt(hay[1..], needle, i);
        assert hay[1..][i..i + |needle|] == hay[i + 1..i + 1 + |needle|];
        assert OccursAt(hay, needle, i + 1);
      } else {
        forall i | 0 < i && OccursAt(hay, needle, i) ensures OccursAt(hay[1..], needle, i - 1) {
          assert hay[1..][i - 1..i - 1 + |needle|] == hay[i..i + |needle|];
        }
      }
    }
  }

  /** `a < b` on strings: lexicographic by code point, which is JavaScript's order on the Basic Multilingual Plane. */
  predicate StrLess(a: string, b: string) {
    if |a| == 0 then |b| > 0
    else if |b| == 0 then false
    else a[0] < b[0] || (a[0] == b[0] && StrLess(a[1..], b[1..]))
  }

  lemma {:induction false} StrLessIrreflexive(a: string)
    ensures !StrLess(a, a)
  {
    if |a| > 0 {
      StrLessIrreflexive(a[1..]);
    }
  }

  lemma {:induction false} StrLessAsymmetric(a: string, b: string)
    ensures StrLess(a, b) ==> !StrLess(b, a)
  {
    if |a| > 0 && |b| > 0 && a[0] == b[0] {
      StrLessAsymmetric(a[1..], b[1..]);
    }
  }

  lemma {:induction false} StrLessTransitive(a: string, b: string, c: string)
    requires StrLess(a, b) && StrLess(b, c)
    ensures StrLess(a, c)
  {
    if |a| > 0 && a[0] == b[0] && b[0] == c[0] {
      StrLessTransitive(a[1..], b[1..], c[1..]);
    }
  }

  /** Two different strings are always ordered one way or the other. */
  lemma {:induction false} StrLessTotal(a: string, b: string)
    requires a != b
    ensures StrLess(a, b) || StrLess(b, a)
  {
    if |a| > 0 && |b| > 0 && a[0] == b[0] {
      assert a == [a[0]] + a[1..] && b == [b[0]] + b[1..];
      StrLessTotal(a[1..], b[1..]);
    }
  }

  predicate IsDigit(c: char) {
    '0' <= c <= '9'
  }

  function DigitChar(d: nat): (c: char)
    requires d < 10
    ensures IsDigit(c)
  {
    ('0' as int + d) as char
  }

  function DigitValue(c: char): nat
    requires IsDigit(c)
  {
    c as int - '0' as int
  }

  /** Decimal rendering of a natural number, most significant digit first, no leading zeros. */
  function NatToString(n: nat): (r: string)
    ensures |r| > 0
    ensures forall i :: 0 <= i < |r| ==> IsDigit(r[i])
  {
    if n < 10 then [DigitChar(n)] else NatToString(n / 10) + [DigitChar(n % 10)]
  }

  /** Decimal rendering of an integer, with a leading `-` when negative. */
  function IntToString(i: int): (r: string)
    ensures |r| > 0
    ensures forall k :: 0 <= k < |r| ==> IsDigit(r[k]) || r[k] == '-'
  {
    if i < 0 then "-" + NatToString(-i) else NatToString(i)
  }

  /** Reads a non-empty string of decimal digits. */
  function ParseNat(s: string): Option<nat>
  {
    if |s| == 0 || !IsDigit(s[|s| - 1]) then None
    else if |s| == 1 then Some(DigitValue(s[0]))
    else match ParseNat(s[..|s| - 1])
      case None => None
      case Some(v) => Some(v * 10 + DigitValue(s[|s| - 1]))
  }

  /** Reads an optionally negative decimal integer. */
  function ParseInt(s: string): Option<int>
  {
    if |s| > 0 && s[0] == '-' then
      match ParseNat(s[1..])
      case None => None
      case Some(v) => Some(-(v as int))
    else
      match ParseNat(s)
      case None => None
      case Some(v) => Some(v as int)
  }

  lemma {:induction false} ParseNatToString(n: nat)
    ensures ParseNat(NatToString(n)) == Some(n)
  {
    if n >= 10 {
      var s := NatToString(n);
      assert s[..|s| - 1] == NatToString(n / 10);
      ParseNatToString(n / 10);
    }
  }

  /** Reading back a rendered integer gives the integer. */
  lemma ParseIntToString(i: int)
    ensures ParseInt(IntToString(i)) == Some(i)
  {
    if i < 0 {
      assert IntToString(i)[1..] == NatToString(-i);
      ParseNatToString(-i);
    } else {
      ParseNatToString(i);
    }
  }

  /** Different integers render differently. */
  lemma IntToStringInjective(i: int, j: int)
    requires IntToString(i) == IntToString(j)
    ensures i == j
  {
    ParseIntToString(i);
    ParseIntToString(j);
  }
}

=== FILE: wrappers.dfy ===
/** The optional value used for absent data and failed parses. */
module Wrappers {

  datatype Option<+T> = None | Some(value: T) {
    predicate IsFailure() {
      None?
    }

    function PropagateFailure<U>(): Option<U>
      requires None?
    {
      None
    }

    function Extract(): T
      requires Some?
    {
      value
    }
  }
}
